=== FILE: README.md ===
# dot: the path-insertion engine, modelled in Dafny

`dot` writes a value into a nested Go structure at a dot-separated path such
as `"Data.Users.-1.Name"`. The walker takes the path one segment at a time.
What it does with a segment depends on the kind of value it has reached:

- a struct field is selected by name;
- a map key is resolved from a placeholder or parsed from the text;
- a slice element is updated in place, or a new element is appended for a
  negative index;
- an array element is replaced;
- a channel field is sent one value.

Missing maps, slices and channels are created on the way. The walk ends
with a type-checked write. Errors carry the path walked so far, and a
type-mismatch message is worded for the handler that last delegated (its
"scenario").

This project models that engine as pure functions over a closed universe of
types and values in place of Go reflection, and proves what the engine
promises about them.

- `types.dfy` (`Types`): scalar, struct (`TRecord`), map, slice, array and
  channel types and values. Maps, slices and channels have an explicit nil
  state. A channel is modelled as a one-slot buffer. `Zero(t)` gives the zero value of a
  type.
- `paths.dfy` (`Paths`): `preparePath`, the join of segments with `.`, and
  the split that `Insert` applies to a path.
- `numerals.dfy` (`Numerals`): the `strconv` parsers the engine uses:
  `ParseInt`, `ParseUint`, `Atoi` and `ParseBool`.
- `errors.dfy` (`Errors`): the five scenarios and the closed set of errors.
- `keycodec.dfy` (`KeyCodec`): `parseType`, `keyValue` and `prepareKey`. A
  key is taken from a placeholder first, then parsed at 64 bits, then
  converted to the key type.
- `walker.dfy` (`Walker`): `insert` and `set`, and the map, slice, array
  and channel handlers.
- `reading.dfy` (`Reading`): an independent reader of the slot a path
  names, and the proof that a successful insertion can be read back there.
- `messages.dfy` (`Messages`): what the path and the scenario in error
  messages can be.
- `resolution.dfy` (`Resolution`): an independent description of the slot
  a path leads to, and the proof that it decides whether an insertion
  succeeds and which type mismatch it reports.
- `idempotence.dfy` (`Idempotence`): repeating an insertion that only
  updates in place changes nothing more.
- `dot.dfy` (`Dot`): `New`, `Replace` and `Insert`.
- `scenarios.dfy` (`Scenarios`): concrete insertions from the repository's
  tests, worked out on the model.

The walker returns the updated root together with an optional error. The
source does not undo what it created before an error: a map, slice or
channel made on the way stays made. The model keeps that.

Three behaviours of the code are easy to misread, and the model follows
the code in each:

- Every negative slice index appends (`slice.go:24`, `slice.go:37`), not
  only `-1`. Other negative indices are not out of range.
- `strconv.ParseBool` accepts `1 t T TRUE true True` and
  `0 f F FALSE false False`, not only `"true"` and `"false"`.
- An integer map key is parsed at 64 bits and then converted to the key
  type. The conversion keeps the low bits (`map.go:81-85`). So the segment
  `"300"` names the `uint8` key 44 (`Scenarios.NarrowedMapKey`).

## Model

| member | source | states |
|---|---|---|
| Paths.PreparePath | helpers.go:7-13 | with no previous path the result is the join of the parts; with no parts it is the previous path; otherwise it is previous + "." + the join |
| Paths.PreparePathCompose | helpers.go:7-13 | preparing `b` on top of `preparePath(p, a)` is preparing `a ++ b` on `p`, when no segment is empty; this is why nested error paths are correct |
| Paths.Split | dot.go:70 | splitting on `.` gives at least one piece, and no piece contains a dot |
| Paths.SplitJoin | dot.go:70 | splitting the join of non-empty, dot-free segments gives those segments back |
| Paths.JoinSplit | dot.go:70 | joining the pieces of a split gives the original text back |
| Numerals.ParseInt | map.go:15 | a text parses exactly when, after an optional `+` or `-`, it is a non-empty run of decimal digits whose signed value lies in the int64 range, and the result is that signed value; a negative result was written with a leading minus |
| Numerals.ParseUint | map.go:17 | a text parses exactly when it is a non-empty run of decimal digits, with no sign, whose value is at most 2^64-1, and the result is that value |
| Numerals.NonCanonicalNumerals | slice.go:12 | `+5` is index 5; `007` is 7 for both parsers; `-0` is 0; a bare sign or the empty text is no number, and the unsigned parser refuses `+5` |
| Numerals.ParseIntFormat | map.go:15 | parsing the decimal text of any int64 gives it back, for both `ParseInt` and `Atoi` |
| Numerals.ParseUintFormat | map.go:17 | parsing the decimal text of any uint64 gives it back |
| Numerals.ParseUintRejectsSign | map.go:17 | a signed text is never an unsigned key, so `"-3"` is rejected for `uint8` |
| Numerals.ParseBool | map.go:25 | the text parses to true exactly when it is one of the six true spellings, and to false exactly when it is one of the six false spellings |
| Numerals.ParseBoolFormat | map.go:25 | the printed form of a bool parses back to it |
| KeyCodec.CommaToDot | map.go:19-21 | every `,` becomes `.`; the length is kept and every other character is unchanged |
| KeyCodec.WrapSigned | map.go:81-85 | conversion to a signed width gives a value in that width's range, congruent to the input modulo 2^width |
| KeyCodec.WrapUnsigned | map.go:81-85 | conversion to an unsigned width gives a value below 2^width, congruent to the input modulo 2^width |
| KeyCodec.WrapSignedInRange | map.go:81-85 | a value already in the signed range is kept unchanged |
| KeyCodec.WrapUnsignedInRange | map.go:81-85 | a value already in the unsigned range is kept unchanged |
| KeyCodec.ParseType | map.go:12-31 | signed and unsigned kinds parse the text as a 64-bit decimal; float kinds parse the text with commas read as dots; complex kinds parse the text unchanged; bool kinds accept the `ParseBool` spellings; string and interface kinds take the text itself as a string; every other kind has no parser. Each result carries the predeclared 64-bit type |
| KeyCodec.KeyValue | map.go:34-68 | a placeholder takes precedence over parsing and must have exactly the key type, or the placeholder-type error results; otherwise a parsed token is the key value; a failed parse is an invalid key naming the token, the path and the key type; a key kind with no parser is an unknown placeholder |
| KeyCodec.Convert | map.go:81-85 | a value that already has the key type is kept; a scalar converted to a non-interface scalar type (an integer one only from an integer) gets exactly that type; an integer narrowed to a signed or unsigned width keeps its value modulo 2^width; every other scalar kind keeps its literal; for an interface key type, and for a value that is not a scalar, the value is kept as it is |
| KeyCodec.PrepareKey | map.go:71-91 | a resolved key of a non-interface key type has exactly that type; preparing fails exactly when resolving the key fails, with the same error; a resolved value that already has the key type is used as it is |
| KeyCodec.SignedKeyNarrowed | map.go:81-85 | an unshadowed token that parses as an int64 names, for any signed key type, that number narrowed to the key's width |
| KeyCodec.UnsignedKeyNarrowed | map.go:81-85 | an unshadowed token that parses as a uint64 names, for any unsigned key type, that number narrowed to the key's width |
| KeyCodec.PrepareKeyIgnoresPath | map.go:71-91 | the path only enters the error: whether a key resolves, and to which key, does not depend on it |
| KeyCodec.KeyTextRoundTrip | map.go:12-31 | every in-range int, uint, bool or string key, written as its text, resolves back to itself when no placeholder has that name |
| KeyCodec.PlaceholderMatchesText | map.go:36-46 | a placeholder registered under a name resolves to the same key as writing the key's own text |
| Types.Zero | map.go:107-108 | the zero value of a type has that type and no channel with a waiting value; numbers are 0, bools false, strings empty, interface and opaque slots nil; maps, slices and channels are nil; an array holds the zero value of its element type at every index, and a struct holds every field, under its own name, at the zero value of the field's type |
| Walker.FieldIndex | dot.go:115 | the index found is the first field with that name, and none is found only when no field has that name |
| Walker.Set | dot.go:139-151 | the write succeeds exactly when the content's type equals the slot's type, and then the slot holds the content; otherwise the slot is unchanged and the error names both types, the path and the scenario passed down |
| Walker.WalkFrom | dot.go:79-136 | a walk never changes the type of the value it walks; a step into a named struct field keeps the struct's name, its number of fields and every other field, and puts into the named field what the walk below it (or the channel handler, for a channel field) produces, with that walk's error |
| Walker.DeadEnd | dot.go:114-132 | reaching a scalar, a channel not reached as a field, or a struct without the named field ends with an unknown-path error naming the prefix through that segment, and changes nothing |
| Walker.InMap | map.go:94-119 | the map is made even on error; on error no entry changes; a key failure is the error reported; on success exactly the resolved key is added or overwritten, with a value of the element type, and every other entry is unchanged; once the key resolves, the error is exactly the nested walk's error in the `Map` scenario |
| Walker.MapDiscardsOld | map.go:107-116 | the old entry under the key plays no part: maps of one type give the same error and store the same value |
| Walker.InSlice | slice.go:10-38 | a non-integer index fails before the slice is made; otherwise the slice is made; a non-negative index must be below the length, keeps the length and leaves other elements alone; a negative index appends one element on success and changes nothing on failure; an index within the slice puts into that element what the walk into it produces, even when that walk fails, and reports its error; a negative index reports the error of the walk from a zero element; both walks are in the `Slice` scenario |
| Walker.AppendValue | slice.go:40-50 | on success the slice grows by exactly one element of the element type and earlier elements are unchanged; on failure it is unchanged; the error is the nested walk's error in the `Slice` scenario |
| Walker.InArray | array.go:10-37 | a non-integer index is an invalid array index; an index outside [0, len), `-1` included, is out of range and names the index, the path and the array type; on error the array is unchanged; on success only the element at the index changes; an index within the array reports the nested walk's error in the `Array` scenario |
| Walker.ArrayReplacesWhole | array.go:25-34 | the element is replaced by a walk from a fresh zero element: arrays of one type give the same error and the same new element |
| Walker.InChannel | channel.go:8-30 | a nil channel is made with one free slot, and stays made with the slot empty when the nested walk fails; on success the slot holds a value of the element type; the error is the nested walk's error in the `Channel` scenario |
| Walker.ChannelIgnoresState | channel.go:8-30 | what is sent does not depend on whether the channel was nil |
| Resolution.WalkResolves | dot.go:79-136 | a walk succeeds exactly when the rest of the path resolves to a slot of the content's type, reports a type mismatch naming the slot's type, the content's type and the slot's scenario when it resolves to another slot, and reports another error when it does not resolve |
| Resolution.MapResolves | map.go:94-119 | a map step's error agrees with the slot reached through the key the segment resolves to, in the `Map` scenario |
| Resolution.SliceResolves | slice.go:10-38 | a slice step's error agrees with the slot reached through the indexed element or, for a negative index, a zero element, in the `Slice` scenario |
| Resolution.ArrayResolves | array.go:10-37 | an array step's error agrees with the slot reached through a zero element when the index is within the array, in the `Array` scenario |
| Resolution.ChannelResolves | channel.go:8-30 | a channel field's error agrees with the slot reached through a zero element, in the `Channel` scenario |
| Resolution.ResolveKeepsSource | dot.go:135 | when no handler takes over, the slot keeps the caller's scenario, so the innermost handler's scenario is the one a type mismatch reports |
| Reading.WriteThenRead | dot.go:79-136 | after a successful walk, reading the walked segments gives exactly the inserted content |
| Reading.WalkFrame | dot.go:79-136 | whether or not it succeeds, a walk leaves reading as before every path that leaves the walked one at a step made in place: another struct field, another map key, another array index, or another slice element when an existing element is walked; below a non-channel struct field or an existing slice element the two paths may share that step and part further down |
| Reading.RecordFrame | dot.go:114-121 | a step into a struct field leaves every path through another field, or diverging below the same field, reading as before |
| Reading.MapFrame | map.go:94-119 | a map step leaves every entry under another key reading as before |
| Reading.SliceFrame | slice.go:24-33 | a step into an existing element leaves every other element, every non-integer index, and the same element below a diverging path, reading as before |
| Reading.ArrayFrame | array.go:10-37 | an array step leaves every other index reading as before |
| Messages.MessagesOnly | dot.go:79-136 | the path prefix and the scenario change neither the written value nor whether the walk succeeds |
| Messages.ScenarioFromHandler | dot.go:90-121 | once a map, slice, array or channel handler takes over, the caller's scenario does not matter; the outcome is the same for every caller scenario |
| Messages.ScenarioFromCaller | dot.go:135 | when no handler takes over, a type mismatch reports the scenario the caller passed down |
| Messages.ErrorPathWithin | dot.go:81-84 | every path an error reports is the prefix of the inserted path through some segment, and a type mismatch reports the whole path |
| Idempotence.WalkIdempotent | dot.go:139-151 | repeating a successful walk that takes no append and no channel step leaves the value unchanged and succeeds again |
| Dot.New | dot.go:44-54 | a handle is returned exactly for a pointer; anything else is the not-a-pointer error; a new handle has no content and no placeholders |
| Dot.Replace | dot.go:60-62 | the name now maps to the value; every other placeholder, the root and the content are unchanged |
| Dot.ReplaceLastWins | dot.go:60-62 | registering a name twice is registering the second value once |
| Dot.Segments | dot.go:69-73 | the empty path has no segments, any other path has at least one, no segment contains a dot, and joining the segments gives the path back |
| Dot.SegmentsJoin | dot.go:69-73 | a path built from non-empty, dot-free segments splits back into them |
| Dot.Insert | dot.go:65-76 | the content is recorded and the placeholders are kept; the root keeps its type; the empty path replaces the whole root exactly when the types match, and otherwise reports a `Var` type mismatch at path "" |
| Dot.InsertResolves | dot.go:65-76 | an insertion succeeds exactly when its path resolves to a slot of the content's type; a slot of another type gives a type mismatch naming that slot's type and scenario; a path that does not resolve gives an error of another kind |
| Dot.InsertFrame | dot.go:65-76 | whether or not it succeeds, an insertion leaves reading as before every path that leaves the inserted one at a step made in place, in the sense of `Reading.WalkFrame` |
| Dot.InsertThenRead | dot.go:65-76 | after a successful insertion the path reads back the content |
| Dot.InsertIdempotent | dot.go:65-76 | repeating a successful insertion that takes no append and no channel step gives the same handle and succeeds again |
| Scenarios.ArrayElementWrite | dot_test.go:291-293 | writing 5 at `G.1` of a `[3]int` gives `[0, 5, 0]` |
| Scenarios.ArrayIndexPastEnd | dot_test.go:307-309 | writing 0 at `G.4` of a `[3]int` fails out of range, naming 4, `G.4` and `[3]int`, and changes nothing |
| Scenarios.ArrayWrongType | dot_test.go:50-52 | storing 15.5 at `G.0` of a `[3]int` is an `Array` type mismatch naming `int`, `float64` and `G.0`, and changes nothing |
| Scenarios.MapWrongType | dot_test.go:62-64 | storing 55 at `B.key` of a `map[string]string` is a `Map` type mismatch naming `string`, `int` and `B.key`; the map is made but gets no entry |
| Scenarios.ArrayKeyPlaceholder | dot_test.go:85-89 | with the placeholder `ArrayAsKey` bound to `[2]int{0, 0}`, `M.ArrayAsKey` stores the content under that array key |
| Scenarios.UnknownArrayKey | dot_test.go:91-93 | any other segment for a `[2]int` key is an unknown placeholder naming the key type and `M.XYZ` |
| Scenarios.NegativeUnsignedKey | dot_test.go:117-119 | `-3` is an invalid `uint8` key; the error names the token, the path and the key type, and the nil map is still made |
| Scenarios.NarrowedMapKey | map.go:81-85 | the segment `300` names the `uint8` key 44 |
| Scenarios.NegativeIndexAppends | slice.go:24-37 | index `-5` appends to a nil `[]int` just as `-1` does |
| Scenarios.InfoAppend | dot_test.go:359-363 | with `F` holding one `Info` titled `F-First`, writing `F-Second` at `F.-1.Title` appends a second `Info` with that title, a nil `Pages` map and a nil `Pipe` channel, and keeps the first |
| Scenarios.AppendWrongType | dot_test.go:58-60 | appending a string to a `[]int` is a `Slice` type mismatch at the full path, and the slice is made but stays empty |

## Left out

- Go reflection (`reflect.Value`, `Kind`, `FieldByName`, `Set`) is replaced by the closed universe in `Types`. Pointers, funcs and other kinds the engine never descends into are opaque scalars.
- Walker.InChannel: blocking and `reflect.Select` (`channel.go:21-27`) are not modelled. The model treats every channel as a one-slot buffer. In the source this holds only for a channel the engine makes itself (`channel.go:10-12`). A channel the user made keeps its own capacity. An unbuffered one blocks the send forever, yet counts as `Drained` in the model. One with capacity above 1 still accepts a send while it holds values, which `Drained` refuses. The walker requires `Drained`: every channel it can reach in place has a free slot. A send into a full slot blocks forever in the source.
- Float and complex key parsing (`map.go:18-23`) is a pair of partial functions passed in as `NumberSyntax`. Only the comma-to-dot replacement is modelled. When the key type is narrower (float32, complex64), the model keeps the float64 or complex128 bit pattern and only changes the type label. Go instead rounds the value to the narrower type.
- Dot.Insert requires `CanInsert`: the content and every placeholder are non-nil, and the root is `Drained`. A nil value makes the source panic at `reflect.ValueOf(nil).Type()`. This is stronger than the source needs. A nil placeholder only panics when its name is the key segment of a map step (`map.go:37-38`). Nil content only panics when the walk reaches `set` (`dot.go:143`). `Drained(d.root)` also rejects a root that holds a full channel the path never sends into, which the source accepts.
- Walker.WalkFrom: its own contract states that the type is kept, and the frame of a struct-field step. Map, slice, array and channel steps are described by their handlers' contracts. When it succeeds and which error it reports are stated by `Resolution.WalkResolves`. What it writes at the walked path is stated by `Reading.WriteThenRead`, and only on success. That everything aside from the walked path is unchanged is stated by `Reading.WalkFrame`, for any outcome. A path that is a prefix of the walked one, or runs past it, is not covered by either. The paths and scenarios in its errors are stated by the `Messages` lemmas.
- Reading.WalkFrame: the frame covers only paths that leave the walked one at a step made in place. Paths through an appended slice element (a negative index) or through a channel field are not covered. Neither is a path that shares a map key or an array index with the walked one and parts below it, because those steps rebuild the element from a zero value. `Walker.InSlice` and `Walker.AppendValue` still state that an append keeps the earlier elements. `Dot.InsertFrame` inherits this.
- KeyCodec.PrepareKey: the `Interface` key kind stands for the empty interface, under which a string token is stored as a string. For a non-empty interface key type (such as `fmt.Stringer`), Go panics at `key.Set` (`map.go:83-88`) because a string does not implement it. The model does not distinguish that case.
- Walker.FieldIndex: Go's `FieldByName` also finds promoted fields of embedded structs. The model looks up direct fields only.
- Walker.Set: map, slice, array and channel types carry no type name and no channel direction. The source compares exact `reflect.Type`s in `set` (`dot.go:143`) and for placeholders in `keyValue` (`map.go:38`). So the model accepts writes that the source rejects:
  - content of type `[]string` into a field of a named type `Tags []string`;
  - a `[2]int` placeholder for a key of a named type `Pair [2]int`.
  A send-only or receive-only channel field, where the source panics in `reflect.MakeChan` (`channel.go:11`) or in `reflect.Select`, is treated as a two-way channel. `Resolution.WalkResolves` and `Dot.InsertResolves` inherit this.
- Walker.InMap: map keys are compared as values, so a float key is compared by its bit pattern. Go compares map keys with `==`. There a NaN key never equals itself, so each `SetMapIndex` (`map.go:116`) adds a new entry that no lookup finds. And `+0` and `-0` are one key. The model overwrites a single NaN entry, and it keeps `-0` and `0` as two keys.
- Reading.WriteThenRead: for a path through a NaN float map key, the source cannot read the inserted value back, though the model can. With `-0` and `0` the model also tells apart keys that the source treats as one.
- Dot.InsertThenRead: inherits the NaN and signed-zero gap of `Reading.WriteThenRead`.
- Idempotence.WalkIdempotent: repeating a walk through a NaN float map key adds a second entry in the source. The model overwrites the first.
- Dot.InsertIdempotent: inherits the NaN gap of `Idempotence.WalkIdempotent`. Each source `Insert` at a NaN key adds a new entry.
- Containers are values in the model. In Go, maps, slice backing arrays and channels are shared by reference, so an in-place slice write (`slice.go:25-30`) or a `SetMapIndex` is seen through every alias of that container. The model has no aliasing.
- Dot.New: `New` on a nil typed pointer returns a handle in the source. On that handle, `Insert("x")` reports an unknown path and `Insert("")` panics. `Argument.Pointer` always carries a target value, so that case is not represented.
- Numerals.Atoi: `strconv.Atoi` is modelled as `ParseInt(s, 10, 64)`, which assumes a platform where `int` is 64 bits wide.
- Unexported fields, which make the source panic on `Set`, are not distinguished from exported ones.
- Interface-typed slots hold an opaque scalar. Their dynamic contents are never walked, as in the source, where such a slot is not a container kind.
- Error text is not formatted. Each error is a datatype value carrying the token, path, types and scenario that the source's message contains. The five message templates of `errMsg` (`dot.go:26-32`) are not modelled.
- `Insert` is not safe for concurrent use in the source, because `Content` and `Placeholders` are shared. The model is sequential.
- `benchmark_test.go` is a timing harness and is not modelled.

=== FILE: dot.dfy ===
/**
 * The public surface (dot.go): `New` wraps a pointed-to structure, `Replace`
 * registers placeholders, and `Insert` splits a path and starts the walker
 * at the root with the `Var` scenario.
 */
module Dot {
  import opened Wrappers
  import opened Types
  import opened Errors
  import opened KeyCodec
  import opened Paths
  import opened Walker
  import opened Reading
  import opened Idempotence
  import opened Resolution

  /** What `New` is given: a pointer to a structure, or anything else. */
  datatype Argument = Pointer(target: Value) | NotPointer(arg: Value)

  /** The `Dot` handle: the structure being modified, the content of the
      last insertion (`None` before the first), and the placeholder table. */
  datatype Dot = Dot(root: Value, content: Option<Value>, placeholders: map<string, Value>)

  /** `New`: only a pointer is accepted; the handle starts with no content
      and no placeholders. */
  function New(obj: Argument): (r: Result<Dot, Error>)
    ensures r.Success? <==> obj.Pointer?
    ensures r.Failure? ==> r.error == NotAPointer
    ensures r.Success? ==>
      r.value.root == obj.target && r.value.content == None && r.value.placeholders == map[]
  {
    match obj
    case NotPointer(_) => Failure(NotAPointer)
    case Pointer(target) => Success(Dot(target, None, map[]))
  }

  /** `Replace`: registers or overwrites one placeholder; nothing is ever
      removed. */
  function Replace(d: Dot, name: string, value: Value): (r: Dot)
    ensures name in r.placeholders && r.placeholders[name] == value
    ensures r.placeholders.Keys == d.placeholders.Keys + {name}
    ensures forall n :: n in d.placeholders && n != name ==> r.placeholders[n] == d.placeholders[n]
    ensures r.root == d.root && r.content == d.content
  {
    d.(placeholders := d.placeholders[name := value])
  }

  /** The last registration under a name wins. */
  lemma ReplaceLastWins(d: Dot, name: string, a: Value, b: Value)
    ensures Replace(Replace(d, name, a), name, b) == Replace(d, name, b)
  {
    assert d.placeholders[name := a][name := b] == d.placeholders[name := b];
  }

  /** The segments `Insert` walks: none for the empty path, otherwise the
      pieces between the dots. */
  function Segments(path: string): (parts: seq<string>)
    ensures path == "" <==> |parts| == 0
    ensures Join(parts) == path
    ensures forall j :: 0 <= j < |parts| ==> NoDot(parts[j])
  {
    if path == "" then [] else JoinSplit(path); Split(path)
  }

  /** The segments of a joined path are the ones joined, when none is empty
      and none contains a dot. */
  lemma SegmentsJoin(parts: seq<string>)
    requires forall i :: 0 <= i < |parts| ==> parts[i] != "" && NoDot(parts[i])
    ensures Segments(Join(parts)) == parts
  {
    if |parts| > 0 {
      SplitJoin(parts);
      JoinNonEmpty(parts);
    }
  }

  /** The walker's view of a handle inserting `content`. */
  function EnvOf(d: Dot, nums: NumberSyntax, content: Value): Env
  {
    Env(nums, d.placeholders, content)
  }

  /** What `Insert` demands of its caller: nil content or a nil placeholder
      makes the source panic, and a send into a full channel slot blocks it
      forever. */
  predicate CanInsert(d: Dot, content: Value)
  {
    && Drained(d.root)
    && !IsNil(content)
    && forall n :: n in d.placeholders ==> !IsNil(d.placeholders[n])
  }

  /** `Insert`: records the content and walks the path from the root. The
      structure keeps its type, the placeholders are untouched, and an empty
      path writes the whole root exactly when the content has the root's
      type. */
  function Insert(d: Dot, nums: NumberSyntax, path: string, content: Value): (r: (Dot, Option<Error>))
    requires CanInsert(d, content)
    ensures r.0.content == Some(content)
    ensures r.0.placeholders == d.placeholders
    ensures TypeOf(r.0.root) == TypeOf(d.root)
    ensures path == "" ==> (r.1.None? <==> TypeOf(content) == TypeOf(d.root))
    ensures path == "" && r.1.None? ==> r.0.root == content
    ensures path == "" && r.1.Some? ==>
      r.0.root == d.root && r.1 == Some(TypeMismatch(TypeOf(d.root), TypeOf(content), "", Var))
  {
    var o := Walk(EnvOf(d, nums, content), d.root, "", Segments(path), Var);
    (Dot(o.value, Some(content), d.placeholders), o.err)
  }

  /** An insertion succeeds exactly when its path resolves to a slot of the
      content's type. A path that resolves to a slot of another type gives a
      type mismatch naming that slot's type and the scenario of the step
      that reached it; a path that does not resolve gives another error. */
  lemma InsertResolves(d: Dot, nums: NumberSyntax, path: string, content: Value)
    requires CanInsert(d, content)
    ensures var slot := Resolve(EnvOf(d, nums, content), d.root, Segments(path), Var);
      && (Insert(d, nums, path, content).1.None? <==> slot.Some? && slot.value.t == TypeOf(content))
      && Explains(Insert(d, nums, path, content).1, slot, content)
  {
    var env := EnvOf(d, nums, content);
    var parts := Segments(path);
    assert Walk(env, d.root, "", parts, Var) == WalkFrom(env, d.root, "", parts, 0, Var);
    WalkResolves(env, d.root, "", parts, 0, Var);
    assert parts[0..] == parts;
  }

  /** After a successful `Insert`, reading the same path gives the content. */
  lemma InsertThenRead(d: Dot, nums: NumberSyntax, path: string, content: Value)
    requires CanInsert(d, content)
    requires Insert(d, nums, path, content).1.None?
    ensures Read(EnvOf(d, nums, content), Insert(d, nums, path, content).0.root, Segments(path)) == Some(content)
  {
    var parts := Segments(path);
    WriteThenRead(EnvOf(d, nums, content), d.root, "", parts, 0, Var);
    assert parts[0..] == parts;
  }

  /** An insertion, successful or not, leaves every path aside from the
      inserted one reading as before: other fields of the records it passes
      through, other entries of its maps, other elements of its arrays and
      of the slices it updates in place. */
  lemma InsertFrame(d: Dot, nums: NumberSyntax, path: string, content: Value, q: seq<string>)
    requires CanInsert(d, content)
    requires Aside(EnvOf(d, nums, content), d.root, Segments(path), q)
    ensures Read(EnvOf(d, nums, content), Insert(d, nums, path, content).0.root, q) == Read(EnvOf(d, nums, content), d.root, q)
  {
    var env := EnvOf(d, nums, content);
    var parts := Segments(path);
    assert Walk(env, d.root, "", parts, Var) == WalkFrom(env, d.root, "", parts, 0, Var);
    assert parts[0..] == parts;
    WalkFrame(env, d.root, "", parts, 0, Var, q);
  }

  /** Repeating a successful `Insert` whose walk takes no append and no
      channel step leaves the same structure and succeeds again. */
  lemma InsertIdempotent(d: Dot, nums: NumberSyntax, path: string, content: Value)
    requires CanInsert(d, content) && Drained(content)
    requires InPlaceOnly(d.root, Segments(path), 0)
    requires Insert(d, nums, path, content).1.None?
    ensures CanInsert(Insert(d, nums, path, content).0, content)
    ensures Insert(Insert(d, nums, path, content).0, nums, path, content) == Insert(d, nums, path, content)
  {
    WalkIdempotent(EnvOf(d, nums, content), d.root, "", Segments(path), 0, Var);
  }
}

=== FILE: errors.dfy ===
/**
 * The scenario tag and the closed set of errors the engine reports (dot.go,
 * map.go, slice.go, array.go). Errors carry the token, path and types the
 * source formats into its messages rather than the formatted text.
 */
module Errors {
  import opened Types

  /** Which handler last delegated to the walker; used only to choose the
      wording of a type-mismatch message. */
  datatype Scenario = Array | Channel | Map | Slice | Var

  datatype Error =
    | NotAPointer
    | UnknownPath(path: string)
    | InvalidSliceIndex(token: string)
    | InvalidArrayIndex(token: string)
    | SliceIndexOutOfRange(index: int, path: string)
    | ArrayIndexOutOfRange(index: int, path: string, arrayType: Type)
    | InvalidMapKey(token: string, path: string, keyType: Type)
    | UnknownPlaceholder(keyType: Type, path: string)
    | PlaceholderTypeMismatch(keyType: Type, placeholderType: Type, path: string)
    | TypeMismatch(slotType: Type, valueType: Type, path: string, scenario: Scenario)
}

=== FILE: idempotence.dfy ===
/**
 * Repeating an insertion. A walk that only moves in place (through record
 * fields and existing slice elements) and neither appends to a slice nor
 * sends into a channel it reaches in place leaves a structure that the same
 * insertion maps to itself. Maps and arrays are always rebuilt from a fresh
 * zero value, so whatever happens below them repeats identically.
 */
module Idempotence {
  import opened Wrappers
  import opened Types
  import opened Numerals
  import opened Errors
  import opened Paths
  import opened Walker

  /** The walk from step `k` takes no append (negative slice index) and no
      channel step on a value it reaches in place. */
  predicate InPlaceOnly(v: Value, parts: seq<string>, k: nat)
    requires k <= |parts|
    decreases |parts| - k
  {
    k == |parts| ||
    match v
    case VRecord(_, fs) =>
      (match FieldIndex(fs, parts[k])
       case None => true
       case Some(i) => !fs[i].1.VChan? && InPlaceOnly(fs[i].1, parts, k + 1))
    case VSlice(_, _) =>
      (match Atoi(parts[k])
       case None => true
       case Some(index) =>
         index >= 0 && (index < |Items(v)| ==> InPlaceOnly(Items(v)[index], parts[k + 1..], 0)))
    case _ => true
  }

  /** The outcome of the walk from step `k`, walked again, is itself. */
  predicate Repeatable(env: Env, v: Value, previous: string, parts: seq<string>, k: nat, source: Scenario)
    requires k <= |parts| && Drained(v)
  {
    var v1 := WalkFrom(env, v, previous, parts, k, source).value;
    Drained(v1) && WalkFrom(env, v1, previous, parts, k, source) == Outcome(v1, None)
  }

  /** A successful insertion without append or channel step, repeated on its
      own result, succeeds and changes nothing. */
  lemma {:induction false} WalkIdempotent(env: Env, v: Value, previous: string, parts: seq<string>, k: nat, source: Scenario)
    requires k <= |parts| && Drained(v) && Drained(env.content)
    requires InPlaceOnly(v, parts, k)
    requires WalkFrom(env, v, previous, parts, k, source).err.None?
    ensures Drained(WalkFrom(env, v, previous, parts, k, source).value)
    ensures var v1 := WalkFrom(env, v, previous, parts, k, source).value;
      WalkFrom(env, v1, previous, parts, k, source) == Outcome(v1, None)
    decreases |parts| - k, 1
  {
    if k < |parts| {
      match v
      case VMap(_, _, _) => MapRepeatable(env, v, previous, parts, k, source);
      case VArray(_, _) => ArrayRepeatable(env, v, previous, parts, k, source);
      case VSlice(_, _) => SliceRepeatable(env, v, previous, parts, k, source);
      case VRecord(_, _) => RecordRepeatable(env, v, previous, parts, k, source);
    }
  }

  lemma MapRepeatable(env: Env, v: Value, previous: string, parts: seq<string>, k: nat, source: Scenario)
    requires k < |parts| && v.VMap?
    requires WalkFrom(env, v, previous, parts, k, source).err.None?
    ensures Repeatable(env, v, previous, parts, k, source)
  {
    var path := PreparePath(previous, parts[..k + 1]);
    var rest := parts[k..];
    assert rest[0] == parts[k];
    var v1 := WalkFrom(env, v, previous, parts, k, source).value;
    assert v1 == InMap(env, v, path, rest).value;
    var key := KeyCodec.PrepareKey(env.nums, env.placeholders, v.keyT, parts[k], path).value;
    var w := Walk(env, Zero(v.elemT), path, rest[1..], Map).value;
    assert v1 == VMap(v.keyT, v.elemT, Some(Entries(v)[key := w]));
    assert Entries(v)[key := w][key := w] == Entries(v)[key := w];
    assert WalkFrom(env, v1, previous, parts, k, source) == InMap(env, v1, path, rest);
  }

  lemma ArrayRepeatable(env: Env, v: Value, previous: string, parts: seq<string>, k: nat, source: Scenario)
    requires k < |parts| && v.VArray?
    requires WalkFrom(env, v, previous, parts, k, source).err.None?
    ensures Repeatable(env, v, previous, parts, k, source)
  {
    var path := PreparePath(previous, parts[..k + 1]);
    var rest := parts[k..];
    assert rest[0] == parts[k];
    var v1 := WalkFrom(env, v, previous, parts, k, source).value;
    assert v1 == InArray(env, v, path, rest).value;
    var index := Atoi(parts[k]).value;
    var w := Walk(env, Zero(v.elemT), path, rest[1..], Array).value;
    assert v1 == VArray(v.elemT, v.elems[index := w]);
    assert v.elems[index := w][index := w] == v.elems[index := w];
    assert WalkFrom(env, v1, previous, parts, k, source) == InArray(env, v1, path, rest);
  }

  lemma {:induction false} SliceRepeatable(env: Env, v: Value, previous: string, parts: seq<string>, k: nat, source: Scenario)
    requires k < |parts| && v.VSlice? && Drained(v) && Drained(env.content)
    requires InPlaceOnly(v, parts, k)
    requires WalkFrom(env, v, previous, parts, k, source).err.None?
    ensures Repeatable(env, v, previous, parts, k, source)
    decreases |parts| - k, 0
  {
    var path := PreparePath(previous, parts[..k + 1]);
    var rest := parts[k..];
    assert rest[0] == parts[k];
    assert rest[1..] == parts[k + 1..];
    var v1 := WalkFrom(env, v, previous, parts, k, source).value;
    assert WalkFrom(env, v, previous, parts, k, source) == InSlice(env, v, path, rest);
    var index := Atoi(parts[k]).value;
    var xs := Items(v);
    var x := xs[index];
    assert Walk(env, x, path, rest[1..], Slice) == WalkFrom(env, x, path, rest[1..], 0, Slice);
    WalkIdempotent(env, x, path, rest[1..], 0, Slice);
    var w := Walk(env, x, path, rest[1..], Slice).value;
    assert v1 == VSlice(v.elemT, Backed(xs[index := w]));
    assert xs[index := w][index := w] == xs[index := w];
    assert Items(v1)[index] == w;
    assert WalkFrom(env, v1, previous, parts, k, source) == InSlice(env, v1, path, rest);
    assert Walk(env, w, path, rest[1..], Slice) == WalkFrom(env, w, path, rest[1..], 0, Slice);
    assert Drained(v1) by {
      forall j | 0 <= j < |Items(v1)|
        ensures Drained(Items(v1)[j])
      {
        if j != index {
          assert Items(v1)[j] == xs[j];
        }
      }
    }
  }

  lemma {:induction false} RecordRepeatable(env: Env, v: Value, previous: string, parts: seq<string>, k: nat, source: Scenario)
    requires k < |parts| && v.VRecord? && Drained(v) && Drained(env.content)
    requires InPlaceOnly(v, parts, k)
    requires WalkFrom(env, v, previous, parts, k, source).err.None?
    ensures Repeatable(env, v, previous, parts, k, source)
    decreases |parts| - k, 0
  {
    var fs := v.fields;
    var i := FieldIndex(fs, parts[k]).value;
    var field := fs[i].1;
    WalkIdempotent(env, field, previous, parts, k + 1, source);
    var w := WalkFrom(env, field, previous, parts, k + 1, source).value;
    var fs' := fs[i := (fs[i].0, w)];
    var v1 := WalkFrom(env, v, previous, parts, k, source).value;
    assert v1 == VRecord(v.name, fs');
    FieldIndexSameNames(fs, fs', parts[k]);
    assert fs'[i := (fs'[i].0, w)] == fs';
    assert Drained(v1) by {
      forall j | 0 <= j < |fs'|
        ensures Drained(fs'[j].1)
      {
        if j != i {
          assert fs'[j] == fs[j];
        }
      }
    }
  }
}

=== FILE: keycodec.dfy ===
/**
 * Map keys (map.go): a path segment becomes a typed map key either through
 * the placeholder table or by parsing it as a primitive of the key's kind,
 * after which the parsed primitive is converted to the declared key type.
 */
module KeyCodec {
  import opened Wrappers
  import opened Types
  import opened Numerals
  import opened Errors

  /** Floating-point and complex parsing (`strconv.ParseFloat` and
      `strconv.ParseComplex`) are not modelled: they are parameters giving the
      bit pattern of the parsed number, or `None` for a malformed token. */
  datatype NumberSyntax = NumberSyntax(
    parseFloat: string -> Option<nat>,
    parseComplex: string -> Option<nat>)

  /** Why `parseType` gave no value: a `strconv` error, or a key kind it has
      no parser for. */
  datatype ParseFailure = Malformed | NoParser

  const Int64Type := ScalarType(Int(W64), "int64")
  const Uint64Type := ScalarType(Uint(W64), "uint64")
  const Float64Type := ScalarType(Float(W64), "float64")
  const Complex128Type := ScalarType(Complex(W128), "complex128")
  const BoolType := ScalarType(Bool, "bool")
  const StringType := ScalarType(String, "string")

  /** `strings.ReplaceAll(s, ",", ".")`: the path separator cannot appear in
      a float token, so a comma stands for the decimal point. */
  function CommaToDot(s: string): (r: string)
    ensures |r| == |s|
    ensures forall i :: 0 <= i < |r| ==> r[i] != ','
    ensures forall i :: 0 <= i < |s| ==> r[i] == (if s[i] == ',' then '.' else s[i])
  {
    if |s| == 0 then ""
    else [if s[0] == ',' then '.' else s[0]] + CommaToDot(s[1..])
  }

  /** `parseType`: parses a token by the kind of the key type, giving a value
      of one of Go's predeclared types (int64, uint64, float64, complex128,
      bool, string). */
  function ParseType(nums: NumberSyntax, keyT: Type, text: string): (r: Result<Value, ParseFailure>)
    ensures r == Failure(NoParser) <==>
      !keyT.TScalar? || keyT.scalar.kind.Uintptr? || keyT.scalar.kind.Opaque?
    ensures keyT.TScalar? && keyT.scalar.kind.Int? ==>
      (r.Success? <==> ParseInt(text).Some?) &&
      (r.Success? ==> r.value == VScalar(Int64Type, LInt(ParseInt(text).value)))
    ensures keyT.TScalar? && keyT.scalar.kind.Uint? ==>
      (r.Success? <==> ParseUint(text).Some?) &&
      (r.Success? ==> r.value == VScalar(Uint64Type, LInt(ParseUint(text).value)))
    ensures keyT.TScalar? && keyT.scalar.kind.Float? ==>
      (r.Success? <==> nums.parseFloat(CommaToDot(text)).Some?) &&
      (r.Success? ==> r.value == VScalar(Float64Type, LBits(nums.parseFloat(CommaToDot(text)).value)))
    ensures keyT.TScalar? && keyT.scalar.kind.Complex? ==>
      (r.Success? <==> nums.parseComplex(text).Some?) &&
      (r.Success? ==> r.value == VScalar(Complex128Type, LBits(nums.parseComplex(text).value)))
    ensures keyT.TScalar? && keyT.scalar.kind.Bool? ==>
      (r.Success? <==> ParseBool(text).Some?) &&
      (r.Success? ==> r.value == VScalar(BoolType, LBool(ParseBool(text).value)))
    ensures keyT.TScalar? && (keyT.scalar.kind.String? || keyT.scalar.kind.Interface?) ==>
      r == Success(VScalar(StringType, LStr(text)))
  {
    if !keyT.TScalar? then Failure(NoParser)
    else
      match keyT.scalar.kind
      case Int(_) =>
        (match ParseInt(text)
         case Some(i) => Success(VScalar(Int64Type, LInt(i)))
         case None => Failure(Malformed))
      case Uint(_) =>
        (match ParseUint(text)
         case Some(u) => Success(VScalar(Uint64Type, LInt(u)))
         case None => Failure(Malformed))
      case Float(_) =>
        (match nums.parseFloat(CommaToDot(text))
         case Some(bits) => Success(VScalar(Float64Type, LBits(bits)))
         case None => Failure(Malformed))
      case Complex(_) =>
        (match nums.parseComplex(text)
         case Some(bits) => Success(VScalar(Complex128Type, LBits(bits)))
         case None => Failure(Malformed))
      case Bool =>
        (match ParseBool(text)
         case Some(b) => Success(VScalar(BoolType, LBool(b)))
         case None => Failure(Malformed))
      case String => Success(VScalar(StringType, LStr(text)))
      case Interface => Success(VScalar(StringType, LStr(text)))
      case Uintptr => Failure(NoParser)
      case Opaque => Failure(NoParser)
  }

  /** The number of values of a sized integer type. */
  function Modulus(w: Width): nat
  {
    match w
    case W8 => 0x100
    case W16 => 0x1_0000
    case W32 => 0x1_0000_0000
    case W64 => 0x1_0000_0000_0000_0000
    case W128 => 0x1_0000_0000_0000_0000_0000_0000_0000_0000
  }

  lemma MultipleOfModulus(k: int, w: Width)
    ensures (k * Modulus(w)) % Modulus(w) == 0
  {
    match w
    case W8 =>
    case W16 =>
    case W32 =>
    case W64 =>
    case W128 =>
  }

  /** Both ways of reading the low bits differ from the input by a multiple
      of the modulus. */
  lemma LowBitsCongruent(i: int, w: Width)
    ensures (i % Modulus(w) - i) % Modulus(w) == 0
    ensures (i % Modulus(w) - Modulus(w) - i) % Modulus(w) == 0
  {
    var q := i / Modulus(w);
    assert i % Modulus(w) - i == -q * Modulus(w);
    assert i % Modulus(w) - Modulus(w) - i == (-q - 1) * Modulus(w);
    MultipleOfModulus(-q, w);
    MultipleOfModulus(-q - 1, w);
  }

  /** Go's conversion to a signed integer type keeps the low bits, read in
      two's complement. */
  function WrapSigned(i: int, w: Width): (r: int)
    ensures -(Modulus(w) / 2) <= r < Modulus(w) / 2
    ensures (r - i) % Modulus(w) == 0
  {
    LowBitsCongruent(i, w);
    assert Modulus(w) % 2 == 0;
    var m := i % Modulus(w);
    if m >= Modulus(w) / 2 then m - Modulus(w) else m
  }

  /** Go's conversion to an unsigned integer type keeps the low bits. */
  function WrapUnsigned(i: int, w: Width): (r: nat)
    ensures r < Modulus(w)
    ensures (r - i) % Modulus(w) == 0
  {
    LowBitsCongruent(i, w);
    i % Modulus(w)
  }

  /** `Value.Convert` for the conversions `prepareKey` performs: a parsed
      integer is narrowed to the key's width, a parsed bool, string, float or
      complex is relabelled with the key's (possibly named) type, and a value
      stored under an interface key keeps its own type. */
  function Convert(v: Value, t: Type): (r: Value)
    ensures TypeOf(v) == t ==> r == v
    ensures v.VScalar? && t.TScalar? && t.scalar.kind != Interface ==>
      (t.scalar.kind.Int? || t.scalar.kind.Uint? ==> v.lit.LInt?) ==> TypeOf(r) == t
    ensures TypeOf(v) != t && v.VScalar? && t.TScalar? && t.scalar.kind.Int? && v.lit.LInt? ==>
      r.lit == LInt(WrapSigned(v.lit.i, t.scalar.kind.w))
    ensures TypeOf(v) != t && v.VScalar? && t.TScalar? && t.scalar.kind.Uint? && v.lit.LInt? ==>
      r.lit == LInt(WrapUnsigned(v.lit.i, t.scalar.kind.w))
    ensures v.VScalar? && t.TScalar? && !t.scalar.kind.Int? && !t.scalar.kind.Uint? && t.scalar.kind != Interface ==>
      r.lit == v.lit
    ensures t.TScalar? && t.scalar.kind == Interface ==> r == v
    ensures !v.VScalar? ==> r == v
  {
    if TypeOf(v) == t || !v.VScalar? || !t.TScalar? then v
    else
      match t.scalar.kind
      case Int(w) => if v.lit.LInt? then VScalar(t.scalar, LInt(WrapSigned(v.lit.i, w))) else v
      case Uint(w) => if v.lit.LInt? then VScalar(t.scalar, LInt(WrapUnsigned(v.lit.i, w))) else v
      case Interface => v
      case _ => VScalar(t.scalar, v.lit)
  }

  /** `keyValue`: a placeholder registered under the token takes precedence
      over parsing it, and must have exactly the key's type. */
  function KeyValue(nums: NumberSyntax, placeholders: map<string, Value>, keyT: Type, text: string, path: string)
    : (r: Result<Value, Error>)
    ensures text in placeholders ==>
      r == if TypeOf(placeholders[text]) == keyT then Success(placeholders[text])
           else Failure(PlaceholderTypeMismatch(keyT, TypeOf(placeholders[text]), path))
    ensures text !in placeholders && ParseType(nums, keyT, text) == Failure(Malformed) ==>
      r == Failure(InvalidMapKey(text, path, keyT))
    ensures text !in placeholders && ParseType(nums, keyT, text) == Failure(NoParser) ==>
      r == Failure(UnknownPlaceholder(keyT, path))
    ensures text !in placeholders && ParseType(nums, keyT, text).Success? ==>
      r == Success(ParseType(nums, keyT, text).value)
  {
    if text in placeholders then
      var p := placeholders[text];
      if TypeOf(p) != keyT then Failure(PlaceholderTypeMismatch(keyT, TypeOf(p), path))
      else Success(p)
    else
      match ParseType(nums, keyT, text)
      case Success(parsed) => Success(parsed)
      case Failure(Malformed) => Failure(InvalidMapKey(text, path, keyT))
      case Failure(NoParser) => Failure(UnknownPlaceholder(keyT, path))
  }

  /** `prepareKey`: the key value converted to the map's key type. A key of a
      non-interface key type always has exactly that type, which is what
      lets the source store it without panicking. */
  function PrepareKey(nums: NumberSyntax, placeholders: map<string, Value>, keyT: Type, text: string, path: string)
    : (r: Result<Value, Error>)
    ensures r.Success? && !(keyT.TScalar? && keyT.scalar.kind == Interface) ==> TypeOf(r.value) == keyT
    ensures r.Failure? <==> KeyValue(nums, placeholders, keyT, text, path).Failure?
    ensures KeyValue(nums, placeholders, keyT, text, path).Failure? ==>
      r == KeyValue(nums, placeholders, keyT, text, path)
    ensures KeyValue(nums, placeholders, keyT, text, path).Success? ==>
      TypeOf(KeyValue(nums, placeholders, keyT, text, path).value) == keyT ==>
      r == KeyValue(nums, placeholders, keyT, text, path)
  {
    match KeyValue(nums, placeholders, keyT, text, path)
    case Success(content) => Success(Convert(content, keyT))
    case Failure(e) => Failure(e)
  }

  /** A parsed signed key is the int64 the token spells, narrowed to the
      key's width by keeping its low bits (so "300" is 44 as an int8 key). */
  lemma SignedKeyNarrowed(nums: NumberSyntax, placeholders: map<string, Value>, keyT: Type, text: string, path: string)
    requires keyT.TScalar? && keyT.scalar.kind.Int?
    requires text !in placeholders && ParseInt(text).Some?
    ensures PrepareKey(nums, placeholders, keyT, text, path)
         == Success(VScalar(keyT.scalar, LInt(WrapSigned(ParseInt(text).value, keyT.scalar.kind.w))))
  {
    var i := ParseInt(text).value;
    if keyT == TScalar(Int64Type) {
      WrapSignedInRange(i, W64);
    }
  }

  /** A parsed unsigned key is the uint64 the token spells, narrowed to the
      key's width by keeping its low bits. */
  lemma UnsignedKeyNarrowed(nums: NumberSyntax, placeholders: map<string, Value>, keyT: Type, text: string, path: string)
    requires keyT.TScalar? && keyT.scalar.kind.Uint?
    requires text !in placeholders && ParseUint(text).Some?
    ensures PrepareKey(nums, placeholders, keyT, text, path)
         == Success(VScalar(keyT.scalar, LInt(WrapUnsigned(ParseUint(text).value, keyT.scalar.kind.w))))
  {
    var u := ParseUint(text).value;
    if keyT == TScalar(Uint64Type) {
      WrapUnsignedInRange(u, W64);
    }
  }

  /** The path only enters the error message: whether a key resolves, and
      to which key, does not depend on it. */
  lemma PrepareKeyIgnoresPath(nums: NumberSyntax, placeholders: map<string, Value>, keyT: Type, text: string, path: string, path': string)
    ensures PrepareKey(nums, placeholders, keyT, text, path).Success?
        == PrepareKey(nums, placeholders, keyT, text, path').Success?
    ensures PrepareKey(nums, placeholders, keyT, text, path).Success? ==>
      PrepareKey(nums, placeholders, keyT, text, path).value == PrepareKey(nums, placeholders, keyT, text, path').value
  {
  }

  /** Which keys can be written as text in a path, and how. */
  function FormatKey(k: Value): Option<string>
  {
    if !k.VScalar? then None
    else
      match (k.st.kind, k.lit)
      case (Int(_), LInt(i)) => Some(FormatInt(i))
      case (Uint(_), LInt(i)) => if i >= 0 then Some(FormatNat(i)) else None
      case (Bool, LBool(b)) => Some(FormatBool(b))
      case (String, LStr(s)) => Some(s)
      case _ => None
  }

  /** A key whose literal is in the range of its type, for the integer types
      the source parses (at most 64 bits). */
  predicate InRange(k: Value)
  {
    k.VScalar? &&
    match (k.st.kind, k.lit)
    case (Int(w), LInt(i)) => Bits(w) <= 64 && -(Modulus(w) / 2) <= i < Modulus(w) / 2
    case (Uint(w), LInt(i)) => Bits(w) <= 64 && 0 <= i < Modulus(w)
    case (Bool, LBool(_)) => true
    case (String, LStr(_)) => true
    case _ => false
  }

  /** The textual form of an in-range key resolves back to exactly that key,
      unless a placeholder of the same name shadows it. */
  lemma KeyTextRoundTrip(nums: NumberSyntax, placeholders: map<string, Value>, k: Value, text: string, path: string)
    requires InRange(k)
    requires FormatKey(k) == Some(text)
    requires text !in placeholders
    ensures PrepareKey(nums, placeholders, TypeOf(k), text, path) == Success(k)
  {
    var keyT := TypeOf(k);
    match k.st.kind
    case Int(w) =>
      var i := k.lit.i;
      ParseIntFormat(i);
      WrapSignedInRange(i, w);
      assert ParseType(nums, keyT, text) == Success(VScalar(Int64Type, LInt(i)));
      assert Convert(VScalar(Int64Type, LInt(i)), keyT) == k;
    case Uint(w) =>
      var u := k.lit.i;
      ParseUintFormat(u);
      WrapUnsignedInRange(u, w);
      assert ParseType(nums, keyT, text) == Success(VScalar(Uint64Type, LInt(u)));
      assert Convert(VScalar(Uint64Type, LInt(u)), keyT) == k;
    case Bool =>
      ParseBoolFormat(k.lit.b);
      assert ParseType(nums, keyT, text) == Success(VScalar(BoolType, k.lit));
    case String =>
      assert ParseType(nums, keyT, text) == Success(VScalar(StringType, k.lit));
  }

  /** Registering a key under a placeholder name and writing that name in the
      path resolves to the same key as writing the key's own text. */
  lemma PlaceholderMatchesText(nums: NumberSyntax, placeholders: map<string, Value>, name: string, k: Value, text: string, path: string)
    requires InRange(k)
    requires FormatKey(k) == Some(text)
    requires text !in placeholders && text != name
    ensures PrepareKey(nums, placeholders[name := k], TypeOf(k), name, path)
         == PrepareKey(nums, placeholders[name := k], TypeOf(k), text, path)
  {
    KeyTextRoundTrip(nums, placeholders[name := k], k, text, path);
  }

  lemma WrapSignedInRange(i: int, w: Width)
    requires -(Modulus(w) / 2) <= i < Modulus(w) / 2
    ensures WrapSigned(i, w) == i
  {
    var m := Modulus(w);
    if i < 0 {
      assert i % m == i + m;
    }
  }

  lemma WrapUnsignedInRange(i: int, w: Width)
    requires 0 <= i < Modulus(w)
    ensures WrapUnsigned(i, w) == i
  {
  }
}

=== FILE: messages.dfy ===
/**
 * What error messages report. The path and the scenario tag the walker
 * carries only shape messages: they never change what is written or whether
 * the insertion succeeds. A type mismatch names the caller's scenario exactly
 * when no handler took over, and every path a message reports is a prefix of
 * the path being inserted (the whole path, for a type mismatch).
 */
module Messages {
  import opened Wrappers
  import opened Types
  import opened Numerals
  import opened Errors
  import opened KeyCodec
  import opened Paths
  import opened Walker

  /** Changing the path prefix or the scenario changes neither the written
      value nor whether the walk succeeds. */
  lemma {:induction false} MessagesOnly(env: Env, v: Value, p1: string, p2: string, parts: seq<string>, k: nat, s1: Scenario, s2: Scenario)
    requires k <= |parts| && Drained(v)
    ensures WalkFrom(env, v, p1, parts, k, s1).value == WalkFrom(env, v, p2, parts, k, s2).value
    ensures WalkFrom(env, v, p1, parts, k, s1).err.None? == WalkFrom(env, v, p2, parts, k, s2).err.None?
    decreases |parts| - k, 2
  {
    if k < |parts| {
      match v
      case VMap(_, _, _) => MapMessagesOnly(env, v, p1, p2, parts, k);
      case VSlice(_, _) => SliceMessagesOnly(env, v, p1, p2, parts, k);
      case VArray(_, _) => ArrayMessagesOnly(env, v, p1, p2, parts, k);
      case VRecord(_, fs) =>
        if FieldIndex(fs, parts[k]).Some? {
          RecordMessagesOnly(env, v, p1, p2, parts, k, s1, s2);
        }
      case _ =>
    }
  }

  /** A record step keeps every other field and writes into the named one
      what the step below it gives, whatever the prefix and scenario; a
      channel field's step walks a zero element below the field name. */
  lemma {:induction false} RecordMessagesOnly(env: Env, v: Value, p1: string, p2: string, parts: seq<string>, k: nat, s1: Scenario, s2: Scenario)
    requires v.VRecord? && k < |parts| && Drained(v)
    requires FieldIndex(v.fields, parts[k]).Some?
    ensures WalkFrom(env, v, p1, parts, k, s1).value == WalkFrom(env, v, p2, parts, k, s2).value
    ensures WalkFrom(env, v, p1, parts, k, s1).err.None? == WalkFrom(env, v, p2, parts, k, s2).err.None?
    decreases |parts| - k, 1
  {
    var i := FieldIndex(v.fields, parts[k]).value;
    var field := v.fields[i].1;
    var r1 := WalkFrom(env, v, p1, parts, k, s1);
    var r2 := WalkFrom(env, v, p2, parts, k, s2);
    if field.VChan? {
      assert parts[k..][1..] == parts[k + 1..];
      NestedMessagesOnly(env, Zero(field.elemT), p1, p2, parts, k, Channel);
    } else {
      MessagesOnly(env, field, p1, p2, parts, k + 1, s1, s2);
    }
    assert r1.value.fields == r2.value.fields;
  }

  /** The walk a handler starts below segment `k` does not depend on the
      path prefix either. */
  lemma {:induction false} NestedMessagesOnly(env: Env, z: Value, p1: string, p2: string, parts: seq<string>, k: nat, s: Scenario)
    requires k < |parts| && Drained(z)
    ensures var o1 := Walk(env, z, PreparePath(p1, parts[..k + 1]), parts[k + 1..], s);
      var o2 := Walk(env, z, PreparePath(p2, parts[..k + 1]), parts[k + 1..], s);
      o1.value == o2.value && o1.err.None? == o2.err.None?
    decreases |parts| - k, 0
  {
    var path1 := PreparePath(p1, parts[..k + 1]);
    var path2 := PreparePath(p2, parts[..k + 1]);
    var tail := parts[k + 1..];
    assert Walk(env, z, path1, tail, s) == WalkFrom(env, z, path1, tail, 0, s);
    assert Walk(env, z, path2, tail, s) == WalkFrom(env, z, path2, tail, 0, s);
    MessagesOnly(env, z, path1, path2, tail, 0, s, s);
  }

  lemma {:induction false} MapMessagesOnly(env: Env, v: Value, p1: string, p2: string, parts: seq<string>, k: nat)
    requires v.VMap? && k < |parts|
    ensures var o1 := InMap(env, v, PreparePath(p1, parts[..k + 1]), parts[k..]);
      var o2 := InMap(env, v, PreparePath(p2, parts[..k + 1]), parts[k..]);
      o1.value == o2.value && o1.err.None? == o2.err.None?
    decreases |parts| - k, 1
  {
    assert parts[k..][1..] == parts[k + 1..];
    PrepareKeyIgnoresPath(env.nums, env.placeholders, v.keyT, parts[k], PreparePath(p1, parts[..k + 1]), PreparePath(p2, parts[..k + 1]));
    NestedMessagesOnly(env, Zero(v.elemT), p1, p2, parts, k, Map);
  }

  lemma {:induction false} SliceMessagesOnly(env: Env, v: Value, p1: string, p2: string, parts: seq<string>, k: nat)
    requires v.VSlice? && k < |parts| && Drained(v)
    ensures var o1 := InSlice(env, v, PreparePath(p1, parts[..k + 1]), parts[k..]);
      var o2 := InSlice(env, v, PreparePath(p2, parts[..k + 1]), parts[k..]);
      o1.value == o2.value && o1.err.None? == o2.err.None?
    decreases |parts| - k, 1
  {
    var path1 := PreparePath(p1, parts[..k + 1]);
    var path2 := PreparePath(p2, parts[..k + 1]);
    var rest := parts[k..];
    assert rest[1..] == parts[k + 1..];
    if Atoi(parts[k]).Some? {
      var index := Atoi(parts[k]).value;
      if index > -1 {
        if index < |Items(v)| {
          NestedMessagesOnly(env, Items(v)[index], p1, p2, parts, k, Slice);
        }
      } else {
        var made := VSlice(v.elemT, Backed(Items(v)));
        assert InSlice(env, v, path1, rest) == AppendValue(env, made, path1, rest[1..]);
        assert InSlice(env, v, path2, rest) == AppendValue(env, made, path2, rest[1..]);
        NestedMessagesOnly(env, Zero(v.elemT), p1, p2, parts, k, Slice);
      }
    }
  }

  lemma {:induction false} ArrayMessagesOnly(env: Env, v: Value, p1: string, p2: string, parts: seq<string>, k: nat)
    requires v.VArray? && k < |parts|
    ensures var o1 := InArray(env, v, PreparePath(p1, parts[..k + 1]), parts[k..]);
      var o2 := InArray(env, v, PreparePath(p2, parts[..k + 1]), parts[k..]);
      o1.value == o2.value && o1.err.None? == o2.err.None?
    decreases |parts| - k, 1
  {
    assert parts[k..][1..] == parts[k + 1..];
    NestedMessagesOnly(env, Zero(v.elemT), p1, p2, parts, k, Array);
  }

  /** Whether some handler takes over the rest of the path: a map, slice or
      array is reached, or a record field of channel kind, before the path
      ends. */
  predicate Delegates(v: Value, parts: seq<string>, k: nat)
    requires k <= |parts|
    decreases |parts| - k
  {
    k < |parts| &&
    match v
    case VMap(_, _, _) => true
    case VSlice(_, _) => true
    case VArray(_, _) => true
    case VRecord(_, fs) =>
      (match FieldIndex(fs, parts[k])
       case None => false
       case Some(i) => fs[i].1.VChan? || Delegates(fs[i].1, parts, k + 1))
    case _ => false
  }

  /** Once a handler takes over, the scenario the caller passed down is
      irrelevant: the outcome, error included, is the same for every caller
      scenario. */
  lemma {:induction false} ScenarioFromHandler(env: Env, v: Value, previous: string, parts: seq<string>, k: nat, s1: Scenario, s2: Scenario)
    requires k <= |parts| && Drained(v)
    requires Delegates(v, parts, k)
    ensures WalkFrom(env, v, previous, parts, k, s1) == WalkFrom(env, v, previous, parts, k, s2)
    decreases |parts| - k
  {
    match v
    case VRecord(_, fs) =>
      var field := fs[FieldIndex(fs, parts[k]).value].1;
      if !field.VChan? {
        ScenarioFromHandler(env, field, previous, parts, k + 1, s1, s2);
      }
    case _ =>
  }

  /** When no handler takes over, a type mismatch reports the scenario the
      caller passed down (`Var` for an insertion at the root). */
  lemma {:induction false} ScenarioFromCaller(env: Env, v: Value, previous: string, parts: seq<string>, k: nat, source: Scenario)
    requires k <= |parts| && Drained(v)
    requires !Delegates(v, parts, k)
    requires WalkFrom(env, v, previous, parts, k, source).err.Some?
    requires WalkFrom(env, v, previous, parts, k, source).err.value.TypeMismatch?
    ensures WalkFrom(env, v, previous, parts, k, source).err.value.scenario == source
    decreases |parts| - k
  {
    if k < |parts| {
      match v
      case VRecord(_, fs) =>
        var field := fs[FieldIndex(fs, parts[k]).value].1;
        ScenarioFromCaller(env, field, previous, parts, k + 1, source);
      case _ =>
    }
  }

  /** The path an error message reports, for the errors that report one. */
  function ErrorPath(e: Error): Option<string>
  {
    match e
    case UnknownPath(p) => Some(p)
    case SliceIndexOutOfRange(_, p) => Some(p)
    case ArrayIndexOutOfRange(_, p, _) => Some(p)
    case InvalidMapKey(_, p, _) => Some(p)
    case UnknownPlaceholder(_, p) => Some(p)
    case PlaceholderTypeMismatch(_, _, p) => Some(p)
    case TypeMismatch(_, _, p, _) => Some(p)
    case _ => None
  }

  predicate NonEmptySegments(parts: seq<string>)
  {
    forall i :: 0 <= i < |parts| ==> parts[i] != ""
  }

  /** The reported path is the prefix through one of the segments from `k`
      on; a type mismatch reports the whole path. */
  predicate PathWithin(previous: string, parts: seq<string>, k: nat, e: Error)
    requires k <= |parts|
  {
    ErrorPath(e).Some? ==>
      && (exists j :: k <= j <= |parts| && ErrorPath(e).value == PreparePath(previous, parts[..j]))
      && (e.TypeMismatch? ==> ErrorPath(e).value == PreparePath(previous, parts))
  }

  lemma ComposeAt(previous: string, parts: seq<string>, k: nat, j: nat)
    requires k < |parts| && k + 1 + j <= |parts|
    requires NonEmptySegments(parts)
    ensures PreparePath(PreparePath(previous, parts[..k + 1]), parts[k + 1..][..j])
         == PreparePath(previous, parts[..k + 1 + j])
  {
    PreparePathCompose(previous, parts[..k + 1], parts[k + 1..][..j]);
    assert parts[..k + 1] + parts[k + 1..][..j] == parts[..k + 1 + j];
  }

  /** Every error with a path that a walk reports from step `k` names a
      prefix of the inserted path through some segment from `k` on, and a
      type mismatch names the whole path, however deep the handler that
      reported it. */
  lemma {:induction false} ErrorPathWithin(env: Env, v: Value, previous: string, parts: seq<string>, k: nat, source: Scenario)
    requires k <= |parts| && Drained(v)
    requires NonEmptySegments(parts)
    requires WalkFrom(env, v, previous, parts, k, source).err.Some?
    ensures PathWithin(previous, parts, k, WalkFrom(env, v, previous, parts, k, source).err.value)
    decreases |parts| - k, 2
  {
    if k == |parts| {
      assert parts[..k] == parts;
    } else {
      var path := PreparePath(previous, parts[..k + 1]);
      var rest := parts[k..];
      match v
      case VMap(_, _, _) => MapErrorPath(env, v, previous, parts, k);
      case VSlice(_, _) => SliceErrorPath(env, v, previous, parts, k);
      case VArray(_, _) => ArrayErrorPath(env, v, previous, parts, k);
      case VRecord(_, fs) =>
        if FieldIndex(fs, parts[k]).Some? {
          var field := fs[FieldIndex(fs, parts[k]).value].1;
          if field.VChan? {
            NestedErrorPath(env, Zero(field.elemT), previous, parts, k, Channel);
          } else {
            ErrorPathWithin(env, field, previous, parts, k + 1, source);
          }
        }
      case _ =>
    }
  }

  /** An error naming the handler's own path, the prefix through segment
      `k`, is within the inserted path. */
  lemma OwnErrorPath(previous: string, parts: seq<string>, k: nat, e: Error)
    requires k < |parts|
    requires ErrorPath(e) == Some(PreparePath(previous, parts[..k + 1])) && !e.TypeMismatch?
    ensures PathWithin(previous, parts, k, e)
  {
    assert k <= k + 1 <= |parts|;
  }

  lemma {:induction false} MapErrorPath(env: Env, v: Value, previous: string, parts: seq<string>, k: nat)
    requires v.VMap? && k < |parts| && NonEmptySegments(parts)
    requires InMap(env, v, PreparePath(previous, parts[..k + 1]), parts[k..]).err.Some?
    ensures PathWithin(previous, parts, k, InMap(env, v, PreparePath(previous, parts[..k + 1]), parts[k..]).err.value)
    decreases |parts| - k, 1
  {
    var path := PreparePath(previous, parts[..k + 1]);
    var e := InMap(env, v, path, parts[k..]).err.value;
    assert parts[k..][1..] == parts[k + 1..];
    if ErrorPath(e) == Some(path) && !e.TypeMismatch? {
      OwnErrorPath(previous, parts, k, e);
    } else {
      NestedErrorPath(env, Zero(v.elemT), previous, parts, k, Map);
    }
  }

  lemma {:induction false} SliceErrorPath(env: Env, v: Value, previous: string, parts: seq<string>, k: nat)
    requires v.VSlice? && k < |parts| && NonEmptySegments(parts) && Drained(v)
    requires InSlice(env, v, PreparePath(previous, parts[..k + 1]), parts[k..]).err.Some?
    ensures PathWithin(previous, parts, k, InSlice(env, v, PreparePath(previous, parts[..k + 1]), parts[k..]).err.value)
    decreases |parts| - k, 1
  {
    var path := PreparePath(previous, parts[..k + 1]);
    var rest := parts[k..];
    var e := InSlice(env, v, path, rest).err.value;
    assert rest[1..] == parts[k + 1..];
    if ErrorPath(e) == Some(path) && !e.TypeMismatch? {
      OwnErrorPath(previous, parts, k, e);
    } else if Atoi(parts[k]).Some? {
      var index := Atoi(parts[k]).value;
      if index > -1 {
        NestedErrorPath(env, Items(v)[index], previous, parts, k, Slice);
      } else {
        var made := VSlice(v.elemT, Backed(Items(v)));
        assert InSlice(env, v, path, rest) == AppendValue(env, made, path, rest[1..]);
        NestedErrorPath(env, Zero(v.elemT), previous, parts, k, Slice);
      }
    }
  }

  lemma {:induction false} ArrayErrorPath(env: Env, v: Value, previous: string, parts: seq<string>, k: nat)
    requires v.VArray? && k < |parts| && NonEmptySegments(parts)
    requires InArray(env, v, PreparePath(previous, parts[..k + 1]), parts[k..]).err.Some?
    ensures PathWithin(previous, parts, k, InArray(env, v, PreparePath(previous, parts[..k + 1]), parts[k..]).err.value)
    decreases |parts| - k, 1
  {
    var path := PreparePath(previous, parts[..k + 1]);
    var e := InArray(env, v, path, parts[k..]).err.value;
    assert parts[k..][1..] == parts[k + 1..];
    if ErrorPath(e) == Some(path) && !e.TypeMismatch? {
      OwnErrorPath(previous, parts, k, e);
    } else {
      NestedErrorPath(env, Zero(v.elemT), previous, parts, k, Array);
    }
  }

  /** The step a handler hands on: a walk from the prefix through segment
      `k` over the segments after it. */
  lemma {:induction false} NestedErrorPath(env: Env, z: Value, previous: string, parts: seq<string>, k: nat, s: Scenario)
    requires k < |parts| && Drained(z)
    requires NonEmptySegments(parts)
    ensures var o := Walk(env, z, PreparePath(previous, parts[..k + 1]), parts[k + 1..], s);
      o.err.Some? ==> PathWithin(previous, parts, k, o.err.value)
    decreases |parts| - k, 0
  {
    var path := PreparePath(previous, parts[..k + 1]);
    var tail := parts[k + 1..];
    var o := Walk(env, z, path, tail, s);
    if o.err.Some? {
      assert NonEmptySegments(tail);
      assert o == WalkFrom(env, z, path, tail, 0, s);
      ErrorPathWithin(env, z, path, tail, 0, s);
      LiftPathWithin(previous, parts, k, o.err.value);
    }
  }

  /** A path within the segments after `k`, reported below the prefix
      through segment `k`, is within the whole path. */
  lemma LiftPathWithin(previous: string, parts: seq<string>, k: nat, e: Error)
    requires k < |parts| && NonEmptySegments(parts)
    requires PathWithin(PreparePath(previous, parts[..k + 1]), parts[k + 1..], 0, e)
    ensures PathWithin(previous, parts, k, e)
  {
    var path := PreparePath(previous, parts[..k + 1]);
    var tail := parts[k + 1..];
    if ErrorPath(e).Some? {
      var j :| 0 <= j <= |tail| && ErrorPath(e).value == PreparePath(path, tail[..j]);
      ComposeAt(previous, parts, k, j);
      assert k <= k + 1 + j <= |parts| && ErrorPath(e).value == PreparePath(previous, parts[..k + 1 + j]);
      if e.TypeMismatch? {
        ComposeAt(previous, parts, k, |tail|);
        assert tail[..|tail|] == tail;
        assert parts[..k + 1 + |tail|] == parts;
      }
    }
  }
}

=== FILE: numerals.dfy ===
/**
 * The parts of Go's `strconv` package the engine relies on: base-10 signed
 * and unsigned parsing (`Atoi`, `ParseInt(s, 10, 64)`, `ParseUint(s, 10, 64)`),
 * `ParseBool`, and decimal formatting as `%d` prints it.
 */
module Numerals {
  import opened Wrappers

  const MinInt64: int := -0x8000_0000_0000_0000
  const MaxInt64: int := 0x7fff_ffff_ffff_ffff
  const MaxUint64: int := 0xffff_ffff_ffff_ffff

  predicate IsDigit(c: char)
  {
    '0' <= c <= '9'
  }

  /** A non-empty run of decimal digits; base 10 admits no sign, prefix or
      underscore. */
  predicate IsDigits(s: string)
  {
    |s| > 0 && forall i :: 0 <= i < |s| ==> IsDigit(s[i])
  }

  function DigitsValue(s: string): nat
    requires forall i :: 0 <= i < |s| ==> IsDigit(s[i])
  {
    if |s| == 0 then 0
    else
      assert IsDigit(s[|s| - 1]);
      DigitsValue(s[..|s| - 1]) * 10 + (s[|s| - 1] as int - '0' as int)
  }

  /** `strconv.ParseUint(s, 10, 64)`: digits only, at most 2^64 - 1. */
  function ParseUint(s: string): (r: Option<nat>)
    ensures r.Some? ==> r.value <= MaxUint64
    ensures r.Some? ==> IsDigits(s)
    ensures r.Some? <==> IsDigits(s) && DigitsValue(s) <= MaxUint64
    ensures r.Some? ==> r.value == DigitsValue(s)
  {
    if IsDigits(s) && DigitsValue(s) <= MaxUint64 then Some(DigitsValue(s)) else None
  }

  /** The text after an optional leading sign. */
  function Magnitude(s: string): string
  {
    if |s| > 0 && (s[0] == '+' || s[0] == '-') then s[1..] else s
  }

  /** The number a signed numeral spells: its digits, negated after a minus. */
  function SignedValue(s: string): int
    requires IsDigits(Magnitude(s))
  {
    var m: int := DigitsValue(Magnitude(s));
    if |s| > 0 && s[0] == '-' then -m else m
  }

  /** `strconv.ParseInt(s, 10, 64)`, which is also what `strconv.Atoi` computes
      on a 64-bit platform: an optional sign, then digits, within the int64
      range. */
  function ParseInt(s: string): (r: Option<int>)
    ensures r.Some? ==> MinInt64 <= r.value <= MaxInt64
    ensures r.Some? && r.value < 0 ==> |s| > 0 && s[0] == '-'
    ensures r.Some? ==> IsDigits(if |s| > 0 && (s[0] == '+' || s[0] == '-') then s[1..] else s)
    ensures r.Some? <==> IsDigits(Magnitude(s)) && MinInt64 <= SignedValue(s) <= MaxInt64
    ensures r.Some? ==> r.value == SignedValue(s)
  {
    var signed := |s| > 0 && (s[0] == '+' || s[0] == '-');
    var digits := if signed then s[1..] else s;
    if !IsDigits(digits) then None
    else
      var magnitude: int := DigitsValue(digits);
      var n := if signed && s[0] == '-' then -magnitude else magnitude;
      if MinInt64 <= n <= MaxInt64 then Some(n) else None
  }

  function Atoi(s: string): Option<int>
  {
    ParseInt(s)
  }

  /** `strconv.ParseBool`. */
  function ParseBool(s: string): (r: Option<bool>)
    ensures r == Some(true) <==> s in {"1", "t", "T", "true", "TRUE", "True"}
    ensures r == Some(false) <==> s in {"0", "f", "F", "false", "FALSE", "False"}
  {
    if s in {"1", "t", "T", "true", "TRUE", "True"} then Some(true)
    else if s in {"0", "f", "F", "false", "FALSE", "False"} then Some(false)
    else None
  }

  function DigitChar(d: nat): char
    requires d < 10
  {
    ('0' as int + d) as char
  }

  /** Decimal digits of a natural number, without leading zeros. */
  function FormatNat(n: nat): string
  {
    if n < 10 then [DigitChar(n)] else FormatNat(n / 10) + [DigitChar(n % 10)]
  }

  /** `strconv.Itoa` / `%d`. */
  function FormatInt(n: int): string
  {
    if n < 0 then "-" + FormatNat(-n) else FormatNat(n)
  }

  function FormatBool(b: bool): string
  {
    if b then "true" else "false"
  }

  lemma {:induction false} FormatNatDigits(n: nat)
    ensures IsDigits(FormatNat(n))
    ensures DigitsValue(FormatNat(n)) == n
  {
    var s := FormatNat(n);
    if n >= 10 {
      FormatNatDigits(n / 10);
      assert s[..|s| - 1] == FormatNat(n / 10);
    }
  }

  /** Parsing the decimal form of a natural number gives it back. */
  lemma ParseUintFormat(n: nat)
    requires n <= MaxUint64
    ensures ParseUint(FormatNat(n)) == Some(n)
  {
    FormatNatDigits(n);
  }

  /** Parsing what `%d` prints gives the number back, over the whole int64
      range. */
  lemma ParseIntFormat(n: int)
    requires MinInt64 <= n <= MaxInt64
    ensures ParseInt(FormatInt(n)) == Some(n)
    ensures Atoi(FormatInt(n)) == Some(n)
  {
    if n < 0 {
      FormatNatDigits(-n);
      assert FormatInt(n)[1..] == FormatNat(-n);
    } else {
      FormatNatDigits(n);
    }
  }

  /** An unsigned parse rejects every signed token, such as "-3" or "+3". */
  lemma ParseUintRejectsSign(s: string)
    requires |s| > 0 && (s[0] == '-' || s[0] == '+')
    ensures ParseUint(s) == None
  {
  }

  lemma ParseBoolFormat(b: bool)
    ensures ParseBool(FormatBool(b)) == Some(b)
  {
  }

  /** Texts `%d` never prints are numerals too: an explicit plus sign, leading
      zeros and a signed zero. */
  lemma NonCanonicalNumerals()
    ensures Atoi("+5") == Some(5)
    ensures Atoi("007") == Some(7) && ParseUint("007") == Some(7)
    ensures Atoi("-0") == Some(0)
    ensures Atoi("+") == None && Atoi("") == None && ParseUint("+5") == None
  {
    assert Magnitude("+5") == "5";
    assert DigitsValue("5") == 5;
    assert "007"[..2] == "00" && "00"[..1] == "0";
    assert DigitsValue("007") == 7;
    assert Magnitude("-0") == "0";
    assert DigitsValue("0") == 0;
  }
}

=== FILE: paths.dfy ===
/**
 * Dot-separated paths (helpers.go and the splitting done in dot.go): joining
 * segments, splitting a path string, and `preparePath`, which rebuilds the
 * path prefix that error messages report.
 */
module Paths {

  /** `strings.Join(parts, ".")`. */
  function Join(parts: seq<string>): string
  {
    if |parts| == 0 then ""
    else if |parts| == 1 then parts[0]
    else parts[0] + "." + Join(parts[1..])
  }

  predicate NoDot(segment: string)
  {
    forall i :: 0 <= i < |segment| ==> segment[i] != '.'
  }

  /** `strings.Split(s, ".")`: one piece more than there are dots, and no
      piece contains a dot. */
  function Split(s: string): (pieces: seq<string>)
    ensures |pieces| >= 1
    ensures forall j :: 0 <= j < |pieces| ==> NoDot(pieces[j])
  {
    if |s| == 0 then [""]
    else
      var rest := Split(s[1..]);
      if s[0] == '.' then [""] + rest
      else [[s[0]] + rest[0]] + rest[1..]
  }

  /** `preparePath(previousPath, parts)`: the previous path, if any, followed
      by the parts, all joined by dots. */
  function PreparePath(previous: string, parts: seq<string>): (path: string)
    ensures previous == "" ==> path == Join(parts)
    ensures |parts| == 0 ==> path == previous
    ensures previous != "" && |parts| > 0 ==> path == previous + "." + Join(parts)
  {
    var all := if previous != "" then [previous] + parts else parts;
    assert previous != "" ==> all[1..] == parts;
    Join(all)
  }

  lemma {:induction false} JoinAppend(a: seq<string>, b: seq<string>)
    requires |a| > 0 && |b| > 0
    ensures Join(a + b) == Join(a) + "." + Join(b)
  {
    if |a| == 1 {
      assert (a + b)[1..] == b;
    } else {
      assert (a + b)[1..] == a[1..] + b;
      JoinAppend(a[1..], b);
    }
  }

  /** Building a path in two steps gives the path built in one, provided the
      first step's segments are not empty. This is what keeps the paths that
      error messages report consistent across the walker's recursion. */
  lemma PreparePathCompose(previous: string, a: seq<string>, b: seq<string>)
    requires forall i :: 0 <= i < |a| ==> a[i] != ""
    ensures PreparePath(PreparePath(previous, a), b) == PreparePath(previous, a + b)
  {
    if |a| == 0 {
      assert a + b == b;
    } else if |b| == 0 {
      assert a + b == a;
    } else {
      JoinAppend(a, b);
      if previous == "" {
        assert Join(a) != "" by { JoinNonEmpty(a); }
      }
    }
  }

  lemma {:induction false} JoinNonEmpty(a: seq<string>)
    requires |a| > 0 && a[0] != ""
    ensures Join(a) != ""
    ensures Join(a)[0] == a[0][0]
  {
    if |a| > 1 {
      assert Join(a) == a[0] + ("." + Join(a[1..]));
    }
  }

  lemma {:induction false} SplitSingle(a: string)
    requires NoDot(a)
    ensures Split(a) == [a]
  {
    if |a| > 0 {
      SplitSingle(a[1..]);
      assert [a[0]] + a[1..] == a;
    }
  }

  lemma {:induction false} SplitAtDot(a: string, b: string)
    requires NoDot(a)
    ensures Split(a + "." + b) == [a] + Split(b)
  {
    var s := a + "." + b;
    if |a| == 0 {
      assert s[1..] == b;
    } else {
      assert s[1..] == a[1..] + "." + b;
      SplitAtDot(a[1..], b);
      assert [a[0]] + a[1..] == a;
    }
  }

  /** Splitting a joined path gives back its segments, when there is at least
      one segment and none contains a dot. */
  lemma {:induction false} SplitJoin(parts: seq<string>)
    requires |parts| > 0
    requires forall i :: 0 <= i < |parts| ==> NoDot(parts[i])
    ensures Split(Join(parts)) == parts
  {
    if |parts| == 1 {
      SplitSingle(parts[0]);
    } else {
      SplitJoin(parts[1..]);
      SplitAtDot(parts[0], Join(parts[1..]));
      assert [parts[0]] + parts[1..] == parts;
    }
  }

  /** Joining the pieces of a split path gives back the path. */
  lemma {:induction false} JoinSplit(s: string)
    ensures Join(Split(s)) == s
  {
    if |s| > 0 {
      var rest := Split(s[1..]);
      JoinSplit(s[1..]);
      if s[0] == '.' {
        assert ([""] + rest)[1..] == rest;
        assert s == "." + s[1..];
      } else if |rest| == 1 {
        assert s == [s[0]] + s[1..];
      } else {
        var pieces := [[s[0]] + rest[0]] + rest[1..];
        assert pieces[1..] == rest[1..];
        assert s == [s[0]] + s[1..];
      }
    }
  }
}

=== FILE: reading.dfy ===
/**
 * Reading back what an insertion wrote. `Read` is an independent
 * description of the slot a path names, and `WriteThenRead` proves that a
 * successful walk leaves the inserted content exactly there.
 */
module Reading {
  import opened Wrappers
  import opened Types
  import opened Numerals
  import opened KeyCodec
  import opened Walker
  import opened Paths

  /** The value a path names: record fields by name, map entries by the key
      the segment resolves to, array and slice elements by index. A negative
      slice index names the last element (the one an append fills), and a
      channel field names the value waiting in its slot. */
  function Read(env: Env, v: Value, parts: seq<string>): Option<Value>
    decreases |parts|
  {
    if |parts| == 0 then Some(v)
    else
      match v
      case VRecord(_, fs) =>
        (match FieldIndex(fs, parts[0])
         case None => None
         case Some(i) =>
           var field := fs[i].1;
           if !field.VChan? then Read(env, field, parts[1..])
           else if field.ch.Some? && field.ch.value.Some? then Read(env, field.ch.value.value, parts[1..])
           else None)
      case VMap(keyT, _, _) =>
        (match PrepareKey(env.nums, env.placeholders, keyT, parts[0], "")
         case Success(key) => if key in Entries(v) then Read(env, Entries(v)[key], parts[1..]) else None
         case Failure(_) => None)
      case VSlice(_, _) =>
        (match Atoi(parts[0])
         case None => None
         case Some(i) =>
           var xs := Items(v);
           if 0 <= i < |xs| then Read(env, xs[i], parts[1..])
           else if i < 0 && |xs| > 0 then Read(env, xs[|xs| - 1], parts[1..])
           else None)
      case VArray(_, xs) =>
        (match Atoi(parts[0])
         case None => None
         case Some(i) => if 0 <= i < |xs| then Read(env, xs[i], parts[1..]) else None)
      case _ => None
  }

  /** After a successful walk, the path it walked reads back exactly the
      inserted content. */
  lemma {:induction false} WriteThenRead(env: Env, v: Value, previous: string, parts: seq<string>, k: nat, source: Errors.Scenario)
    requires k <= |parts| && Drained(v)
    requires WalkFrom(env, v, previous, parts, k, source).err.None?
    ensures Read(env, WalkFrom(env, v, previous, parts, k, source).value, parts[k..]) == Some(env.content)
    decreases |parts| - k, 3
  {
    if k < |parts| {
      var r := WalkFrom(env, v, previous, parts, k, source);
      var path := Paths.PreparePath(previous, parts[..k + 1]);
      var rest := parts[k..];
      match v
      case VMap(_, _, _) =>
        assert r == InMap(env, v, path, rest);
        MapReads(env, v, previous, parts, k);
      case VSlice(_, _) =>
        assert r == InSlice(env, v, path, rest);
        SliceReads(env, v, previous, parts, k);
      case VArray(_, _) =>
        assert r == InArray(env, v, path, rest);
        ArrayReads(env, v, previous, parts, k);
      case VRecord(_, _) =>
        RecordReads(env, v, previous, parts, k, source);
      case _ =>
    }
  }

  /** A successful step into a record field, channel or not, reads back the
      content through the field of that name. */
  lemma {:induction false} RecordReads(env: Env, v: Value, previous: string, parts: seq<string>, k: nat, source: Errors.Scenario)
    requires v.VRecord? && k < |parts| && Drained(v)
    requires WalkFrom(env, v, previous, parts, k, source).err.None?
    ensures Read(env, WalkFrom(env, v, previous, parts, k, source).value, parts[k..]) == Some(env.content)
    decreases |parts| - k, 2
  {
    var r := WalkFrom(env, v, previous, parts, k, source);
    var path := Paths.PreparePath(previous, parts[..k + 1]);
    var rest := parts[k..];
    var i := FieldIndex(v.fields, parts[k]).value;
    var field := v.fields[i].1;
    var o := if field.VChan? then InChannel(env, field, path, rest)
             else WalkFrom(env, field, previous, parts, k + 1, source);
    assert r.value.fields == v.fields[i := (v.fields[i].0, o.value)];
    FieldIndexSameNames(v.fields, r.value.fields, parts[k]);
    assert rest[0] == parts[k];
    assert rest[1..] == parts[k + 1..];
    if field.VChan? {
      ChannelReads(env, field, previous, parts, k);
      assert Read(env, r.value, rest) == Read(env, o.value.ch.value.value, parts[k + 1..]);
    } else {
      WriteThenRead(env, field, previous, parts, k + 1, source);
      assert Read(env, r.value, rest) == Read(env, o.value, parts[k + 1..]);
    }
  }

  /** The walk a handler starts below segment `k` reads back the content
      over the segments after it. */
  lemma {:induction false} NestedReads(env: Env, z: Value, previous: string, parts: seq<string>, k: nat, s: Errors.Scenario)
    requires k < |parts| && Drained(z)
    requires Walk(env, z, Paths.PreparePath(previous, parts[..k + 1]), parts[k + 1..], s).err.None?
    ensures Read(env, Walk(env, z, Paths.PreparePath(previous, parts[..k + 1]), parts[k + 1..], s).value, parts[k + 1..])
      == Some(env.content)
    decreases |parts| - k, 0
  {
    var path := Paths.PreparePath(previous, parts[..k + 1]);
    var tail := parts[k + 1..];
    assert Walk(env, z, path, tail, s) == WalkFrom(env, z, path, tail, 0, s);
    WriteThenRead(env, z, path, tail, 0, s);
    assert tail[0..] == tail;
  }

  lemma {:induction false} MapReads(env: Env, v: Value, previous: string, parts: seq<string>, k: nat)
    requires v.VMap? && k < |parts|
    requires InMap(env, v, Paths.PreparePath(previous, parts[..k + 1]), parts[k..]).err.None?
    ensures Read(env, InMap(env, v, Paths.PreparePath(previous, parts[..k + 1]), parts[k..]).value, parts[k..])
      == Some(env.content)
    decreases |parts| - k, 1
  {
    var path := Paths.PreparePath(previous, parts[..k + 1]);
    var rest := parts[k..];
    assert rest[0] == parts[k];
    assert rest[1..] == parts[k + 1..];
    PrepareKeyIgnoresPath(env.nums, env.placeholders, v.keyT, parts[k], path, "");
    NestedReads(env, Zero(v.elemT), previous, parts, k, Errors.Map);
  }

  lemma {:induction false} SliceReads(env: Env, v: Value, previous: string, parts: seq<string>, k: nat)
    requires v.VSlice? && k < |parts| && Drained(v)
    requires InSlice(env, v, Paths.PreparePath(previous, parts[..k + 1]), parts[k..]).err.None?
    ensures Read(env, InSlice(env, v, Paths.PreparePath(previous, parts[..k + 1]), parts[k..]).value, parts[k..])
      == Some(env.content)
    decreases |parts| - k, 1
  {
    var path := Paths.PreparePath(previous, parts[..k + 1]);
    var rest := parts[k..];
    assert rest[0] == parts[k];
    assert rest[1..] == parts[k + 1..];
    var index := Atoi(parts[k]).value;
    var xs := Items(v);
    if index > -1 {
      NestedReads(env, xs[index], previous, parts, k, Errors.Slice);
    } else {
      var made := VSlice(v.elemT, Backed(xs));
      assert InSlice(env, v, path, rest) == AppendValue(env, made, path, rest[1..]);
      NestedReads(env, Zero(v.elemT), previous, parts, k, Errors.Slice);
    }
  }

  lemma {:induction false} ArrayReads(env: Env, v: Value, previous: string, parts: seq<string>, k: nat)
    requires v.VArray? && k < |parts|
    requires InArray(env, v, Paths.PreparePath(previous, parts[..k + 1]), parts[k..]).err.None?
    ensures Read(env, InArray(env, v, Paths.PreparePath(previous, parts[..k + 1]), parts[k..]).value, parts[k..])
      == Some(env.content)
    decreases |parts| - k, 1
  {
    var rest := parts[k..];
    assert rest[0] == parts[k];
    assert rest[1..] == parts[k + 1..];
    NestedReads(env, Zero(v.elemT), previous, parts, k, Errors.Array);
  }

  /** A successful channel step leaves in the slot a value that reads back
      the content over the segments after the field name. */
  lemma {:induction false} ChannelReads(env: Env, c: Value, previous: string, parts: seq<string>, k: nat)
    requires c.VChan? && k < |parts| && Drained(c)
    requires InChannel(env, c, Paths.PreparePath(previous, parts[..k + 1]), parts[k..]).err.None?
    ensures var c' := InChannel(env, c, Paths.PreparePath(previous, parts[..k + 1]), parts[k..]).value;
      && c'.VChan? && c'.ch.Some? && c'.ch.value.Some?
      && Read(env, c'.ch.value.value, parts[k + 1..]) == Some(env.content)
    decreases |parts| - k, 1
  {
    assert parts[k..][1..] == parts[k + 1..];
    NestedReads(env, Zero(c.elemT), previous, parts, k, Errors.Channel);
  }

  /** The element a slice index reads in a slice of length `n`. */
  function ElementRead(n: nat, j: int): (r: Option<nat>)
    ensures r.Some? ==> r.value < n
  {
    if 0 <= j < n then Some(j) else if j < 0 && n > 0 then Some(n - 1) else None
  }

  /** Path `q` leaves the walked path `p` at a step the walk makes in place:
      it names another field of a record, another entry of a map, another
      element of an array, or another element of a slice whose indexed
      element is walked in place. Below a record field that is not a
      channel, and below an in-place slice element, the two may share the
      step and part further down. */
  predicate Aside(env: Env, v: Value, p: seq<string>, q: seq<string>)
    decreases |p|
  {
    |p| > 0 && |q| > 0 &&
    match v
    case VRecord(_, fs) =>
      (match FieldIndex(fs, p[0])
       case None => false
       case Some(i) =>
         FieldIndex(fs, q[0]) != Some(i) || (!fs[i].1.VChan? && Aside(env, fs[i].1, p[1..], q[1..])))
    case VMap(keyT, _, _) =>
      var key := PrepareKey(env.nums, env.placeholders, keyT, p[0], "");
      key.Success? && PrepareKey(env.nums, env.placeholders, keyT, q[0], "") != key
    case VSlice(_, _) =>
      (match Atoi(p[0])
       case None => false
       case Some(i) =>
         0 <= i < |Items(v)| &&
         match Atoi(q[0])
         case None => true
         case Some(j) =>
           ElementRead(|Items(v)|, j) != Some(i) || Aside(env, Items(v)[i], p[1..], q[1..]))
    case VArray(_, xs) =>
      (match Atoi(p[0])
       case None => false
       case Some(i) => 0 <= i < |xs| && Atoi(q[0]) != Some(i))
    case _ => false
  }

  /** A walk leaves every path aside from the walked one reading as before,
      whether or not the walk succeeds. */
  lemma {:induction false} WalkFrame(env: Env, v: Value, previous: string, parts: seq<string>, k: nat, source: Errors.Scenario, q: seq<string>)
    requires k <= |parts| && Drained(v)
    requires Aside(env, v, parts[k..], q)
    ensures Read(env, WalkFrom(env, v, previous, parts, k, source).value, q) == Read(env, v, q)
    decreases |parts| - k, 2
  {
    var path := PreparePath(previous, parts[..k + 1]);
    var rest := parts[k..];
    assert rest[0] == parts[k];
    assert rest[1..] == parts[k + 1..];
    match v
    case VMap(_, _, _) =>
      assert WalkFrom(env, v, previous, parts, k, source) == InMap(env, v, path, rest);
      MapFrame(env, v, path, rest, q);
    case VSlice(_, _) =>
      assert WalkFrom(env, v, previous, parts, k, source) == InSlice(env, v, path, rest);
      SliceFrame(env, v, previous, parts, k, q);
    case VArray(_, _) =>
      assert WalkFrom(env, v, previous, parts, k, source) == InArray(env, v, path, rest);
      ArrayFrame(env, v, path, rest, q);
    case VRecord(_, _) =>
      RecordFrame(env, v, previous, parts, k, source, q);
  }

  /** A record step changes only the named field; a path through another
      field, or aside below a non-channel field, reads as before. */
  lemma {:induction false} RecordFrame(env: Env, v: Value, previous: string, parts: seq<string>, k: nat, source: Errors.Scenario, q: seq<string>)
    requires v.VRecord? && k < |parts| && Drained(v)
    requires Aside(env, v, parts[k..], q)
    ensures Read(env, WalkFrom(env, v, previous, parts, k, source).value, q) == Read(env, v, q)
    decreases |parts| - k, 1
  {
    var r := WalkFrom(env, v, previous, parts, k, source);
    var rest := parts[k..];
    assert rest[0] == parts[k];
    assert rest[1..] == parts[k + 1..];
    var i := FieldIndex(v.fields, parts[k]).value;
    FieldIndexSameNames(v.fields, r.value.fields, q[0]);
    if FieldIndex(v.fields, q[0]) == Some(i) {
      var field := v.fields[i].1;
      WalkFrame(env, field, previous, parts, k + 1, source, q[1..]);
    }
  }

  /** The walk a handler starts below segment `k` leaves every path aside
      from the segments after it reading as before. */
  lemma {:induction false} NestedFrame(env: Env, z: Value, previous: string, parts: seq<string>, k: nat, s: Errors.Scenario, q: seq<string>)
    requires k < |parts| && Drained(z)
    requires Aside(env, z, parts[k + 1..], q)
    ensures Read(env, Walk(env, z, PreparePath(previous, parts[..k + 1]), parts[k + 1..], s).value, q) == Read(env, z, q)
    decreases |parts| - k, 0
  {
    var path := PreparePath(previous, parts[..k + 1]);
    var tail := parts[k + 1..];
    assert Walk(env, z, path, tail, s) == WalkFrom(env, z, path, tail, 0, s);
    assert tail[0..] == tail;
    WalkFrame(env, z, path, tail, 0, s, q);
  }

  /** A map step changes at most the entry under the resolved key. */
  lemma MapFrame(env: Env, m: Value, path: string, parts: seq<string>, q: seq<string>)
    requires m.VMap? && |parts| > 0
    requires Aside(env, m, parts, q)
    ensures Read(env, InMap(env, m, path, parts).value, q) == Read(env, m, q)
  {
    PrepareKeyIgnoresPath(env.nums, env.placeholders, m.keyT, parts[0], path, "");
  }

  /** An array step changes at most the element at its index. */
  lemma ArrayFrame(env: Env, a: Value, path: string, parts: seq<string>, q: seq<string>)
    requires a.VArray? && |parts| > 0
    requires Aside(env, a, parts, q)
    ensures Read(env, InArray(env, a, path, parts).value, q) == Read(env, a, q)
  {
    var r := InArray(env, a, path, parts);
    assert |r.value.elems| == |a.elems|;
  }

  /** An in-place slice step changes at most the indexed element, and a path
      aside below that element reads as before. */
  lemma {:induction false} SliceFrame(env: Env, s: Value, previous: string, parts: seq<string>, k: nat, q: seq<string>)
    requires s.VSlice? && k < |parts| && Drained(s)
    requires Aside(env, s, parts[k..], q)
    ensures Read(env, InSlice(env, s, PreparePath(previous, parts[..k + 1]), parts[k..]).value, q) == Read(env, s, q)
    decreases |parts| - k, 1
  {
    var rest := parts[k..];
    assert rest[0] == parts[k];
    assert rest[1..] == parts[k + 1..];
    var i := Atoi(parts[k]).value;
    if Atoi(q[0]).Some? && ElementRead(|Items(s)|, Atoi(q[0]).value) == Some(i) {
      NestedFrame(env, Items(s)[i], previous, parts, k, Errors.Slice, q[1..]);
    }
  }
}

=== FILE: resolution.dfy ===
/**
 * When an insertion succeeds. `Resolve` follows a path through a value the
 * way the walker's handlers step into it, but keeps only the type of the
 * slot the path ends at and the scenario of the step that reached it. The
 * walker's error is then determined by the slot alone: no slot means an
 * error that is not a type mismatch, a slot of the content's type means
 * success, and any other slot means a type mismatch naming that slot.
 */
module Resolution {
  import opened Wrappers
  import opened Types
  import opened Numerals
  import opened Errors
  import opened KeyCodec
  import opened Paths
  import opened Walker
  import opened Messages

  /** The slot a path ends at: its type, and the scenario of the step that
      reached it, which is the one a type mismatch there reports. */
  datatype Slot = Slot(t: Type, scenario: Scenario)

  /** The slot a path names, if every segment can be followed. A map step
      needs a key the segment resolves to and goes on in a zero element; a
      slice step goes on in the existing element for an index within the
      slice and in a zero element for a negative index; an array step needs
      an index within the array and goes on in a zero element; a record step
      follows the named field, into a zero element of a channel field. */
  function Resolve(env: Env, v: Value, parts: seq<string>, source: Scenario): Option<Slot>
    decreases |parts|
  {
    if |parts| == 0 then Some(Slot(TypeOf(v), source))
    else
      match v
      case VMap(keyT, elemT, _) =>
        if PrepareKey(env.nums, env.placeholders, keyT, parts[0], "").Success? then
          Resolve(env, Zero(elemT), parts[1..], Map)
        else None
      case VSlice(elemT, _) =>
        (match Atoi(parts[0])
         case None => None
         case Some(i) =>
           if i < 0 then Resolve(env, Zero(elemT), parts[1..], Slice)
           else if i < |Items(v)| then Resolve(env, Items(v)[i], parts[1..], Slice)
           else None)
      case VArray(elemT, xs) =>
        (match Atoi(parts[0])
         case None => None
         case Some(i) => if 0 <= i < |xs| then Resolve(env, Zero(elemT), parts[1..], Array) else None)
      case VRecord(_, fs) =>
        (match FieldIndex(fs, parts[0])
         case None => None
         case Some(i) =>
           var field := fs[i].1;
           if field.VChan? then Resolve(env, Zero(field.elemT), parts[1..], Channel)
           else Resolve(env, field, parts[1..], source))
      case _ => None
  }

  /** The error a walk reports agrees with the slot its path resolves to. */
  predicate Explains(err: Option<Error>, slot: Option<Slot>, content: Value)
  {
    match slot
    case None => err.Some? && !err.value.TypeMismatch?
    case Some(Slot(t, s)) =>
      if t == TypeOf(content) then err.None?
      else
        && err.Some? && err.value.TypeMismatch?
        && err.value.slotType == t
        && err.value.valueType == TypeOf(content)
        && err.value.scenario == s
  }

  /** A walk from step `k` succeeds exactly when the rest of the path
      resolves to a slot of the content's type; when it resolves to another
      slot the walk reports a type mismatch naming that slot's type and
      scenario; when it does not resolve the error is of another kind. */
  lemma {:induction false} WalkResolves(env: Env, v: Value, previous: string, parts: seq<string>, k: nat, source: Scenario)
    requires k <= |parts| && Drained(v)
    ensures Explains(WalkFrom(env, v, previous, parts, k, source).err, Resolve(env, v, parts[k..], source), env.content)
    decreases |parts| - k, 2
  {
    if k == |parts| {
      assert parts[k..] == [];
    } else {
      var path := PreparePath(previous, parts[..k + 1]);
      var rest := parts[k..];
      assert rest[0] == parts[k];
      assert rest[1..] == parts[k + 1..];
      match v
      case VMap(_, _, _) =>
        assert WalkFrom(env, v, previous, parts, k, source) == InMap(env, v, path, rest);
        MapResolves(env, v, previous, parts, k, source);
      case VSlice(_, _) =>
        assert WalkFrom(env, v, previous, parts, k, source) == InSlice(env, v, path, rest);
        SliceResolves(env, v, previous, parts, k, source);
      case VArray(_, _) =>
        assert WalkFrom(env, v, previous, parts, k, source) == InArray(env, v, path, rest);
        ArrayResolves(env, v, previous, parts, k, source);
      case VRecord(_, fs) =>
        if FieldIndex(fs, parts[k]).Some? {
          var field := fs[FieldIndex(fs, parts[k]).value].1;
          if field.VChan? {
            ChannelResolves(env, field, previous, parts, k);
          } else {
            WalkResolves(env, field, previous, parts, k + 1, source);
          }
        }
      case _ =>
    }
  }

  /** The walk a handler starts below segment `k` agrees with the slot the
      segments after it resolve to. */
  lemma {:induction false} NestedResolves(env: Env, z: Value, previous: string, parts: seq<string>, k: nat, s: Scenario)
    requires k < |parts| && Drained(z)
    ensures Explains(Walk(env, z, PreparePath(previous, parts[..k + 1]), parts[k + 1..], s).err,
                     Resolve(env, z, parts[k + 1..], s), env.content)
    decreases |parts| - k, 0
  {
    var path := PreparePath(previous, parts[..k + 1]);
    var tail := parts[k + 1..];
    assert Walk(env, z, path, tail, s) == WalkFrom(env, z, path, tail, 0, s);
    WalkResolves(env, z, path, tail, 0, s);
    assert tail[0..] == tail;
  }

  lemma {:induction false} MapResolves(env: Env, v: Value, previous: string, parts: seq<string>, k: nat, source: Scenario)
    requires v.VMap? && k < |parts|
    ensures Explains(InMap(env, v, PreparePath(previous, parts[..k + 1]), parts[k..]).err,
                     Resolve(env, v, parts[k..], source), env.content)
    decreases |parts| - k, 1
  {
    var path := PreparePath(previous, parts[..k + 1]);
    var rest := parts[k..];
    assert rest[0] == parts[k];
    assert rest[1..] == parts[k + 1..];
    PrepareKeyIgnoresPath(env.nums, env.placeholders, v.keyT, parts[k], path, "");
    if PrepareKey(env.nums, env.placeholders, v.keyT, parts[k], path).Success? {
      NestedResolves(env, Zero(v.elemT), previous, parts, k, Map);
    }
  }

  lemma {:induction false} SliceResolves(env: Env, v: Value, previous: string, parts: seq<string>, k: nat, source: Scenario)
    requires v.VSlice? && k < |parts| && Drained(v)
    ensures Explains(InSlice(env, v, PreparePath(previous, parts[..k + 1]), parts[k..]).err,
                     Resolve(env, v, parts[k..], source), env.content)
    decreases |parts| - k, 1
  {
    var rest := parts[k..];
    assert rest[0] == parts[k];
    assert rest[1..] == parts[k + 1..];
    if Atoi(parts[k]).Some? {
      var index := Atoi(parts[k]).value;
      if index < 0 {
        NestedResolves(env, Zero(v.elemT), previous, parts, k, Slice);
      } else if index < |Items(v)| {
        NestedResolves(env, Items(v)[index], previous, parts, k, Slice);
      }
    }
  }

  lemma {:induction false} ArrayResolves(env: Env, v: Value, previous: string, parts: seq<string>, k: nat, source: Scenario)
    requires v.VArray? && k < |parts|
    ensures Explains(InArray(env, v, PreparePath(previous, parts[..k + 1]), parts[k..]).err,
                     Resolve(env, v, parts[k..], source), env.content)
    decreases |parts| - k, 1
  {
    var rest := parts[k..];
    assert rest[0] == parts[k];
    assert rest[1..] == parts[k + 1..];
    if Atoi(parts[k]).Some? && 0 <= Atoi(parts[k]).value < |v.elems| {
      NestedResolves(env, Zero(v.elemT), previous, parts, k, Array);
    }
  }

  /** A channel field's step agrees with the slot the segments after the
      field name resolve to from a zero element, in the `Channel` scenario. */
  lemma {:induction false} ChannelResolves(env: Env, c: Value, previous: string, parts: seq<string>, k: nat)
    requires c.VChan? && k < |parts| && Drained(c)
    ensures Explains(InChannel(env, c, PreparePath(previous, parts[..k + 1]), parts[k..]).err,
                     Resolve(env, Zero(c.elemT), parts[k + 1..], Channel), env.content)
    decreases |parts| - k, 1
  {
    assert parts[k..][1..] == parts[k + 1..];
    NestedResolves(env, Zero(c.elemT), previous, parts, k, Channel);
  }

  /** When no handler takes over, the slot keeps the caller's scenario; so a
      handler whose nested walk does not delegate further reports its own
      scenario in a type mismatch. */
  lemma {:induction false} ResolveKeepsSource(env: Env, v: Value, parts: seq<string>, k: nat, source: Scenario)
    requires k <= |parts|
    requires !Delegates(v, parts, k)
    ensures Resolve(env, v, parts[k..], source).Some? ==> Resolve(env, v, parts[k..], source).value.scenario == source
    decreases |parts| - k
  {
    if k < |parts| {
      var rest := parts[k..];
      assert rest[0] == parts[k];
      assert rest[1..] == parts[k + 1..];
      match v
      case VRecord(_, fs) =>
        if FieldIndex(fs, parts[k]).Some? {
          ResolveKeepsSource(env, fs[FieldIndex(fs, parts[k]).value].1, parts, k + 1, source);
        }
      case _ =>
    }
  }
}

=== FILE: scenarios.dfy ===
/**
 * Concrete insertions taken from the behaviour the source's tests describe
 * (dot_test.go), evaluated on the model.
 */
module Scenarios {
  import opened Wrappers
  import opened Types
  import opened Errors
  import opened KeyCodec
  import opened Walker
  import opened Dot
  import Paths

  const IntT := ScalarType(Int(W64), "int")
  const Float64T := ScalarType(Float(W64), "float64")
  const StrT := ScalarType(String, "string")
  const Uint8T := ScalarType(Uint(W8), "uint8")

  function IntV(i: int): Value { VScalar(IntT, LInt(i)) }

  const NoFloats := NumberSyntax(_ => None, _ => None)

  /** A two-segment path splits back into its segments. */
  lemma TwoSegments(f: string, tok: string)
    requires f != "" && tok != "" && Paths.NoDot(f) && Paths.NoDot(tok)
    ensures Segments(f + "." + tok) == [f, tok]
  {
    assert Paths.Join([f, tok]) == f + "." + tok by {
      assert [f, tok][1..] == [tok];
    }
    SegmentsJoin([f, tok]);
  }

  /** Inserting through the only field of a record: the walk below the field
      decides both the new field value and the error. */
  lemma FieldPathInsert(name: string, f: string, x: Value, nums: NumberSyntax, ph: map<string, Value>, path: string, content: Value)
    requires !x.VChan? && Drained(x) && !IsNil(content)
    requires forall n :: n in ph ==> !IsNil(ph[n])
    requires |Segments(path)| > 0 && Segments(path)[0] == f
    ensures var d := Dot(VRecord(name, [(f, x)]), None, ph);
      var o := WalkFrom(Env(nums, ph, content), x, "", Segments(path), 1, Var);
      CanInsert(d, content) && Insert(d, nums, path, content) == (Dot(VRecord(name, [(f, o.value)]), Some(content), ph), o.err)
  {
    var d := Dot(VRecord(name, [(f, x)]), None, ph);
    var env := Env(nums, ph, content);
    var parts := Segments(path);
    assert FieldIndex([(f, x)], f) == Some(0);
    assert EnvOf(d, nums, content) == env;
    var o := WalkFrom(env, x, "", parts, 1, Var);
    assert [(f, x)][0 := (f, o.value)] == [(f, o.value)];
    assert WalkFrom(env, d.root, "", parts, 0, Var) == Outcome(VRecord(name, [(f, o.value)]), o.err);
    assert Walk(env, d.root, "", parts, Var) == WalkFrom(env, d.root, "", parts, 0, Var);
  }

  /** The two-segment case of `FieldPathInsert`. */
  lemma FieldInsert(name: string, f: string, x: Value, nums: NumberSyntax, ph: map<string, Value>, tok: string, content: Value)
    requires !x.VChan? && Drained(x) && !IsNil(content)
    requires forall n :: n in ph ==> !IsNil(ph[n])
    requires f != "" && tok != "" && Paths.NoDot(f) && Paths.NoDot(tok)
    ensures var d := Dot(VRecord(name, [(f, x)]), None, ph);
      var o := WalkFrom(Env(nums, ph, content), x, "", [f, tok], 1, Var);
      Insert(d, nums, f + "." + tok, content) == (Dot(VRecord(name, [(f, o.value)]), Some(content), ph), o.err)
  {
    TwoSegments(f, tok);
    FieldPathInsert(name, f, x, nums, ph, f + "." + tok, content);
  }

  /** A record with an `[3]int` field `G`. */
  const ArrayHolder := TRecord("Data", [("G", TArray(3, TScalar(IntT)))])

  const ZeroInts := VArray(TScalar(IntT), [IntV(0), IntV(0), IntV(0)])

  lemma ZeroArrayHolder()
    ensures Zero(ArrayHolder) == VRecord("Data", [("G", ZeroInts)])
  {
    assert Zero(TScalar(IntT)) == IntV(0);
    assert Zero(TArray(3, TScalar(IntT))) == ZeroInts;
    assert Zero(ArrayHolder).fields[0] == ("G", ZeroInts);
  }

  /** An array element is replaced in place; the others keep their values. */
  lemma ArrayElementWrite()
    ensures Insert(Dot(Zero(ArrayHolder), None, map[]), NoFloats, "G.1", IntV(5))
      == (Dot(VRecord("Data", [("G", VArray(TScalar(IntT), [IntV(0), IntV(5), IntV(0)]))]), Some(IntV(5)), map[]), None)
  {
    ZeroArrayHolder();
    FieldInsert("Data", "G", ZeroInts, NoFloats, map[], "1", IntV(5));
    assert "G" + "." + "1" == "G.1";
    ArrayWriteStep();
  }

  lemma ArrayWriteStep()
    ensures WalkFrom(Env(NoFloats, map[], IntV(5)), ZeroInts, "", ["G", "1"], 1, Var)
      == Outcome(VArray(TScalar(IntT), [IntV(0), IntV(5), IntV(0)]), None)
  {
    var env := Env(NoFloats, map[], IntV(5));
    assert Paths.PreparePath("", ["G", "1"]) == "G.1";
    assert Numerals.Atoi("1") == Some(1) by { Numerals.ParseIntFormat(1); }
    assert ["G", "1"][1..] == ["1"];
    assert Walk(env, IntV(0), "G.1", [], Array) == Outcome(IntV(5), None);
    assert ZeroInts.elems[1 := IntV(5)] == [IntV(0), IntV(5), IntV(0)];
    assert InArray(env, ZeroInts, "G.1", ["1"]) == Outcome(VArray(TScalar(IntT), [IntV(0), IntV(5), IntV(0)]), None);
  }

  /** Writing past the end of a fixed-size array reports the index, the full
      path and the array type, and leaves the record as it was. */
  lemma ArrayIndexPastEnd()
    ensures Insert(Dot(Zero(ArrayHolder), None, map[]), NoFloats, "G.4", IntV(0))
      == (Dot(Zero(ArrayHolder), Some(IntV(0)), map[]), Some(ArrayIndexOutOfRange(4, "G.4", TArray(3, TScalar(IntT)))))
  {
    ZeroArrayHolder();
    FieldInsert("Data", "G", ZeroInts, NoFloats, map[], "4", IntV(0));
    assert "G" + "." + "4" == "G.4";
    PastEndStep();
  }

  lemma PastEndStep()
    ensures WalkFrom(Env(NoFloats, map[], IntV(0)), ZeroInts, "", ["G", "4"], 1, Var)
      == Outcome(ZeroInts, Some(ArrayIndexOutOfRange(4, "G.4", TArray(3, TScalar(IntT)))))
  {
    var env := Env(NoFloats, map[], IntV(0));
    assert Paths.PreparePath("", ["G", "4"]) == "G.4";
    assert Numerals.Atoi("4") == Some(4) by { Numerals.ParseIntFormat(4); }
    assert ["G", "4"][1..] == ["4"];
    assert InArray(env, ZeroInts, "G.4", ["4"]) == Outcome(ZeroInts, Some(ArrayIndexOutOfRange(4, "G.4", TArray(3, TScalar(IntT)))));
  }

  /** A record with a `map[uint8]int` field `M`, nil until first written. */
  const MapHolder := TRecord("Data", [("M", TMap(TScalar(Uint8T), TScalar(IntT)))])

  const NilMap := VMap(TScalar(Uint8T), TScalar(IntT), None)

  /** The segment "300" resolves to the `uint8` key 44. */
  lemma KeyThreeHundred()
    ensures PrepareKey(NoFloats, map[], TScalar(Uint8T), "300", "M.300") == Success(VScalar(Uint8T, LInt(44)))
  {
    assert Numerals.DigitsValue("3") == 3;
    assert "300"[..2] == "30" && "30"[..1] == "3";
    assert Numerals.DigitsValue("300") == 300;
    assert Numerals.ParseUint("300") == Some(300);
    assert WrapUnsigned(300, W8) == 44;
  }

  /** A map key is parsed at 64 bits and then converted to the key type, so
      the segment "300" lands on the `uint8` key 44; the nil map is made. */
  lemma NarrowedMapKey()
    ensures Insert(Dot(Zero(MapHolder), None, map[]), NoFloats, "M.300", IntV(5))
      == (Dot(VRecord("Data", [("M", VMap(TScalar(Uint8T), TScalar(IntT), Some(map[VScalar(Uint8T, LInt(44)) := IntV(5)])))]),
              Some(IntV(5)), map[]), None)
  {
    ZeroMapHolder();
    FieldInsert("Data", "M", NilMap, NoFloats, map[], "300", IntV(5));
    assert "M" + "." + "300" == "M.300";
    NarrowedKeyStep();
  }

  lemma NarrowedKeyStep()
    ensures WalkFrom(Env(NoFloats, map[], IntV(5)), NilMap, "", ["M", "300"], 1, Var)
      == Outcome(VMap(TScalar(Uint8T), TScalar(IntT), Some(map[VScalar(Uint8T, LInt(44)) := IntV(5)])), None)
  {
    var env := Env(NoFloats, map[], IntV(5));
    assert Paths.PreparePath("", ["M", "300"]) == "M.300";
    KeyThreeHundred();
    assert ["M", "300"][1..] == ["300"];
    assert Walk(env, IntV(0), "M.300", [], Map) == Outcome(IntV(5), None);
    assert InMap(env, NilMap, "M.300", ["300"])
      == Outcome(VMap(TScalar(Uint8T), TScalar(IntT), Some(map[VScalar(Uint8T, LInt(44)) := IntV(5)])), None);
  }

  lemma ZeroMapHolder()
    ensures Zero(MapHolder) == VRecord("Data", [("M", NilMap)])
  {
    assert Zero(MapHolder).fields[0] == ("M", NilMap);
  }

  /** A negative segment is not an unsigned key: the error names the token,
      the path and the key type, and the map is still made. */
  lemma NegativeUnsignedKey()
    ensures Insert(Dot(Zero(MapHolder), None, map[]), NoFloats, "M.-3", IntV(5))
      == (Dot(VRecord("Data", [("M", VMap(TScalar(Uint8T), TScalar(IntT), Some(map[])))]), Some(IntV(5)), map[]),
          Some(InvalidMapKey("-3", "M.-3", TScalar(Uint8T))))
  {
    ZeroMapHolder();
    FieldInsert("Data", "M", NilMap, NoFloats, map[], "-3", IntV(5));
    assert "M" + "." + "-3" == "M.-3";
    NegativeKeyStep();
  }

  lemma NegativeKeyStep()
    ensures WalkFrom(Env(NoFloats, map[], IntV(5)), NilMap, "", ["M", "-3"], 1, Var)
      == Outcome(VMap(TScalar(Uint8T), TScalar(IntT), Some(map[])), Some(InvalidMapKey("-3", "M.-3", TScalar(Uint8T))))
  {
    var env := Env(NoFloats, map[], IntV(5));
    assert Paths.PreparePath("", ["M", "-3"]) == "M.-3";
    assert Numerals.ParseUint("-3") == None;
    assert ["M", "-3"][1..] == ["-3"];
    assert InMap(env, NilMap, "M.-3", ["-3"])
      == Outcome(VMap(TScalar(Uint8T), TScalar(IntT), Some(map[])), Some(InvalidMapKey("-3", "M.-3", TScalar(Uint8T))));
  }

  /** A record with a `[]int` field `S`, nil until first written. */
  const SliceHolder := TRecord("Data", [("S", TSlice(TScalar(IntT)))])

  const NilInts := VSlice(TScalar(IntT), NilSlice)

  lemma ZeroSliceHolder()
    ensures Zero(SliceHolder) == VRecord("Data", [("S", NilInts)])
  {
    assert Zero(SliceHolder).fields[0] == ("S", NilInts);
  }

  /** Every negative index appends, not only -1. */
  lemma NegativeIndexAppends()
    ensures Insert(Dot(Zero(SliceHolder), None, map[]), NoFloats, "S.-5", IntV(5))
      == (Dot(VRecord("Data", [("S", VSlice(TScalar(IntT), Backed([IntV(5)])))]), Some(IntV(5)), map[]), None)
  {
    ZeroSliceHolder();
    FieldInsert("Data", "S", NilInts, NoFloats, map[], "-5", IntV(5));
    assert "S" + "." + "-5" == "S.-5";
    Numerals.ParseIntFormat(-5);
    assert Numerals.FormatInt(-5) == "-5";
    AppendStep("-5", -5, IntV(5));
  }

  /** Appending a value of the wrong type reports the element type, the
      value's type, the full path and the slice scenario; the slice is made
      but stays empty. */
  lemma AppendWrongType()
    ensures Insert(Dot(Zero(SliceHolder), None, map[]), NoFloats, "S.-1", VScalar(StrT, LStr("x")))
      == (Dot(VRecord("Data", [("S", VSlice(TScalar(IntT), Backed([])))]), Some(VScalar(StrT, LStr("x"))), map[]),
          Some(TypeMismatch(TScalar(IntT), TScalar(StrT), "S.-1", Slice)))
  {
    ZeroSliceHolder();
    FieldInsert("Data", "S", NilInts, NoFloats, map[], "-1", VScalar(StrT, LStr("x")));
    assert "S" + "." + "-1" == "S.-1";
    Numerals.ParseIntFormat(-1);
    assert Numerals.FormatInt(-1) == "-1";
    AppendStep("-1", -1, VScalar(StrT, LStr("x")));
  }

  /** The walk below a nil `[]int` field for a negative index segment. */
  lemma AppendStep(tok: string, n: int, content: Value)
    requires tok != "" && Paths.NoDot(tok) && Numerals.Atoi(tok) == Some(n) && n < 0
    ensures var path := "S" + "." + tok;
      var made := VSlice(TScalar(IntT), Backed([]));
      WalkFrom(Env(NoFloats, map[], content), NilInts, "", ["S", tok], 1, Var)
        == if TypeOf(content) == TScalar(IntT) then Outcome(VSlice(TScalar(IntT), Backed([content])), None)
           else Outcome(made, Some(TypeMismatch(TScalar(IntT), TypeOf(content), path, Slice)))
  {
    var env := Env(NoFloats, map[], content);
    var path := "S" + "." + tok;
    var made := VSlice(TScalar(IntT), Backed([]));
    assert Paths.PreparePath("", ["S", tok]) == path by {
      assert ["S", tok][1..] == [tok];
      assert Paths.Join([tok]) == tok;
    }
    assert ["S", tok][1..] == [tok];
    assert [tok][1..] == [];
    assert Items(NilInts) == [];
    assert InSlice(env, NilInts, path, [tok]) == AppendValue(env, made, path, []);
    assert Walk(env, IntV(0), path, [], Slice) == Set(IntV(0), path, content, Slice);
    assert ["S", tok][..2] == ["S", tok];
    assert [] + [content] == [content];
    assert WalkFrom(env, NilInts, "", ["S", tok], 1, Var) == InSlice(env, NilInts, path, [tok]);
  }

  /** `Part` and `Info` as the source's tests declare them. */
  const PartT := TRecord("Part", [("Slug", TScalar(StrT)), ("Count", TScalar(IntT)),
                                  ("User", TMap(TScalar(StrT), TScalar(StrT)))])
  const InfoT := TRecord("Info", [("Title", TScalar(StrT)), ("Pages", TMap(TScalar(StrT), TScalar(Float64T))),
                                  ("Pipe", TChan(PartT))])

  function StrV(x: string): Value { VScalar(StrT, LStr(x)) }

  /** An `Info` with the given title, its map and channel fields nil. */
  function InfoV(title: string): Value
  {
    VRecord("Info", [("Title", StrV(title)),
                     ("Pages", VMap(TScalar(StrT), TScalar(Float64T), None)),
                     ("Pipe", VChan(PartT, None))])
  }

  /** A record with an `[]Info` field `F` holding one element titled "F-First". */
  const InfoList := VRecord("Data", [("F", VSlice(InfoT, Backed([InfoV("F-First")])))])

  lemma InfoListDrained()
    ensures Drained(VSlice(InfoT, Backed([InfoV("F-First")])))
    ensures !VSlice(InfoT, Backed([InfoV("F-First")])).VChan? && !IsNil(StrV("F-Second"))
  {
    assert Drained(InfoV("F-First"));
  }

  lemma ZeroInfo()
    ensures Zero(InfoT) == InfoV("")
  {
    var z := Zero(InfoT);
    assert z.fields[0] == ("Title", StrV(""));
    assert z.fields[1] == ("Pages", VMap(TScalar(StrT), TScalar(Float64T), None));
    assert z.fields[2] == ("Pipe", VChan(PartT, None));
  }

  /** The path "F.-1.Title" splits into its three segments. */
  lemma InfoTitlePath()
    ensures Segments("F.-1.Title") == ["F", "-1", "Title"]
  {
    var parts := ["F", "-1", "Title"];
    assert Paths.Join(parts) == "F.-1.Title" by {
      assert parts[1..] == ["-1", "Title"];
      assert ["-1", "Title"][1..] == ["Title"];
      assert Paths.Join(["-1", "Title"]) == "-1.Title";
    }
    SegmentsJoin(parts);
  }

  /** A negative index appends an element built from a zero `Info`: the new
      element has the written title and every other field zero, and the
      existing element is kept. */
  lemma InfoAppend()
    ensures CanInsert(Dot(InfoList, None, map[]), StrV("F-Second"))
    ensures Insert(Dot(InfoList, None, map[]), NoFloats, "F.-1.Title", StrV("F-Second"))
      == (Dot(VRecord("Data", [("F", VSlice(InfoT, Backed([InfoV("F-First"), InfoV("F-Second")])))]),
              Some(StrV("F-Second")), map[]), None)
  {
    InfoAppendStep();
    InfoTitlePath();
    InfoListDrained();
    FieldPathInsert("Data", "F", VSlice(InfoT, Backed([InfoV("F-First")])), NoFloats, map[], "F.-1.Title", StrV("F-Second"));
  }

  lemma InfoAppendStep()
    ensures WalkFrom(Env(NoFloats, map[], StrV("F-Second")), VSlice(InfoT, Backed([InfoV("F-First")])), "", ["F", "-1", "Title"], 1, Var)
      == Outcome(VSlice(InfoT, Backed([InfoV("F-First"), InfoV("F-Second")])), None)
  {
    var env := Env(NoFloats, map[], StrV("F-Second"));
    var parts := ["F", "-1", "Title"];
    var s := VSlice(InfoT, Backed([InfoV("F-First")]));
    assert Paths.PreparePath("", parts[..2]) == "F.-1" by {
      assert parts[..2] == ["F", "-1"];
      assert ["F", "-1"][1..] == ["-1"];
    }
    assert parts[1..] == ["-1", "Title"];
    assert ["-1", "Title"][1..] == ["Title"];
    Numerals.ParseIntFormat(-1);
    assert Numerals.FormatInt(-1) == "-1";
    TitleStep();
    assert InSlice(env, s, "F.-1", ["-1", "Title"]) == AppendValue(env, s, "F.-1", ["Title"]);
    assert [InfoV("F-First")] + [InfoV("F-Second")] == [InfoV("F-First"), InfoV("F-Second")];
  }

  /** Writing the title of a zero `Info` below the path "F.-1". */
  lemma TitleStep()
    ensures Walk(Env(NoFloats, map[], StrV("F-Second")), Zero(InfoT), "F.-1", ["Title"], Slice)
      == Outcome(InfoV("F-Second"), None)
  {
    var env := Env(NoFloats, map[], StrV("F-Second"));
    ZeroInfo();
    var fs := InfoV("").fields;
    assert FieldIndex(fs, "Title") == Some(0);
    assert WalkFrom(env, StrV(""), "F.-1", ["Title"], 1, Slice).err == None;
    assert fs[0 := ("Title", StrV("F-Second"))] == InfoV("F-Second").fields;
    assert Walk(env, Zero(InfoT), "F.-1", ["Title"], Slice) == WalkFrom(env, InfoV(""), "F.-1", ["Title"], 0, Slice);
  }

  /** 15.5 as a float64 bit pattern. */
  const FloatV := VScalar(Float64T, LBits(0x402F_0000_0000_0000))

  /** A float stored into an `[3]int` element is an `Array` type mismatch at
      the full path, naming the element type and the float's type; the
      array is unchanged. */
  lemma ArrayWrongType()
    ensures Insert(Dot(Zero(ArrayHolder), None, map[]), NoFloats, "G.0", FloatV)
      == (Dot(Zero(ArrayHolder), Some(FloatV), map[]),
          Some(TypeMismatch(TScalar(IntT), TScalar(Float64T), "G.0", Array)))
  {
    ZeroArrayHolder();
    FieldInsert("Data", "G", ZeroInts, NoFloats, map[], "0", FloatV);
    assert "G" + "." + "0" == "G.0";
    ArrayMismatchStep();
  }

  lemma ArrayMismatchStep()
    ensures WalkFrom(Env(NoFloats, map[], FloatV), ZeroInts, "", ["G", "0"], 1, Var)
      == Outcome(ZeroInts, Some(TypeMismatch(TScalar(IntT), TScalar(Float64T), "G.0", Array)))
  {
    var env := Env(NoFloats, map[], FloatV);
    assert Paths.PreparePath("", ["G", "0"]) == "G.0";
    assert Numerals.Atoi("0") == Some(0) by { Numerals.ParseIntFormat(0); }
    assert ["G", "0"][1..] == ["0"];
    assert Walk(env, IntV(0), "G.0", [], Array) == Outcome(IntV(0), Some(TypeMismatch(TScalar(IntT), TScalar(Float64T), "G.0", Array)));
    assert InArray(env, ZeroInts, "G.0", ["0"]) == Outcome(ZeroInts, Some(TypeMismatch(TScalar(IntT), TScalar(Float64T), "G.0", Array)));
  }

  /** A record with a `map[string]string` field `B`, nil until first written. */
  const StrMapHolder := TRecord("Data", [("B", TMap(TScalar(StrT), TScalar(StrT)))])

  const NilStrMap := VMap(TScalar(StrT), TScalar(StrT), None)

  lemma ZeroStrMapHolder()
    ensures Zero(StrMapHolder) == VRecord("Data", [("B", NilStrMap)])
  {
    assert Zero(StrMapHolder).fields[0] == ("B", NilStrMap);
  }

  /** An int stored into a `map[string]string` is a `Map` type mismatch at
      the full path, naming the value type and the int's type; the nil map
      is made but gets no entry. */
  lemma MapWrongType()
    ensures Insert(Dot(Zero(StrMapHolder), None, map[]), NoFloats, "B.key", IntV(55))
      == (Dot(VRecord("Data", [("B", VMap(TScalar(StrT), TScalar(StrT), Some(map[])))]), Some(IntV(55)), map[]),
          Some(TypeMismatch(TScalar(StrT), TScalar(IntT), "B.key", Map)))
  {
    ZeroStrMapHolder();
    FieldInsert("Data", "B", NilStrMap, NoFloats, map[], "key", IntV(55));
    assert "B" + "." + "key" == "B.key";
    MapMismatchStep();
  }

  lemma MapMismatchStep()
    ensures WalkFrom(Env(NoFloats, map[], IntV(55)), NilStrMap, "", ["B", "key"], 1, Var)
      == Outcome(VMap(TScalar(StrT), TScalar(StrT), Some(map[])), Some(TypeMismatch(TScalar(StrT), TScalar(IntT), "B.key", Map)))
  {
    var env := Env(NoFloats, map[], IntV(55));
    assert Paths.PreparePath("", ["B", "key"]) == "B.key";
    assert PrepareKey(NoFloats, map[], TScalar(StrT), "key", "B.key") == Success(VScalar(StrT, LStr("key")));
    assert ["B", "key"][1..] == ["key"];
    var blank := VScalar(StrT, LStr(""));
    assert Zero(TScalar(StrT)) == blank;
    assert Walk(env, blank, "B.key", [], Map) == Outcome(blank, Some(TypeMismatch(TScalar(StrT), TScalar(IntT), "B.key", Map)));
    assert InMap(env, NilStrMap, "B.key", ["key"])
      == Outcome(VMap(TScalar(StrT), TScalar(StrT), Some(map[])), Some(TypeMismatch(TScalar(StrT), TScalar(IntT), "B.key", Map)));
  }

  /** A record with a `map[[2]int]string` field `M`, nil until first written. */
  const PairKey := TArray(2, TScalar(IntT))

  const PairMapHolder := TRecord("Data", [("M", TMap(PairKey, TScalar(StrT)))])

  const NilPairMap := VMap(PairKey, TScalar(StrT), None)

  const ZeroPair := VArray(TScalar(IntT), [IntV(0), IntV(0)])

  const KeyText := VScalar(StrT, LStr("array-as-key"))

  lemma ZeroPairMapHolder()
    ensures Zero(PairMapHolder) == VRecord("Data", [("M", NilPairMap)])
  {
    assert Zero(PairMapHolder).fields[0] == ("M", NilPairMap);
  }

  /** The handle of the `[2]int`-keyed record with `ArrayAsKey` registered. */
  const PairDot := Dot(VRecord("Data", [("M", NilPairMap)]), None, map["ArrayAsKey" := ZeroPair])

  lemma PairDotInsertable()
    ensures forall n :: n in PairDot.placeholders ==> !IsNil(PairDot.placeholders[n])
    ensures CanInsert(PairDot, KeyText)
  {
    assert PairDot.placeholders.Keys == {"ArrayAsKey"};
  }

  lemma PairHandle()
    ensures Replace(Dot(Zero(PairMapHolder), None, map[]), "ArrayAsKey", ZeroPair) == PairDot
  {
    ZeroPairMapHolder();
  }

  /** A key type that cannot be written as text is reached through a
      placeholder of exactly that type. */
  lemma ArrayKeyPlaceholder()
    ensures var ph := map["ArrayAsKey" := ZeroPair];
      Insert(Replace(Dot(Zero(PairMapHolder), None, map[]), "ArrayAsKey", ZeroPair), NoFloats, "M.ArrayAsKey", KeyText)
      == (Dot(VRecord("Data", [("M", VMap(PairKey, TScalar(StrT), Some(map[ZeroPair := KeyText])))]), Some(KeyText), ph), None)
  {
    PairHandle();
    PairKeyInsert();
  }

  lemma PairKeyInsert()
    ensures CanInsert(PairDot, KeyText)
    ensures Insert(PairDot, NoFloats, "M.ArrayAsKey", KeyText)
      == (Dot(VRecord("Data", [("M", VMap(PairKey, TScalar(StrT), Some(map[ZeroPair := KeyText])))]), Some(KeyText), PairDot.placeholders), None)
  {
    PairDotInsertable();
    PlaceholderKeyStep();
    assert "M" + "." + "ArrayAsKey" == "M.ArrayAsKey";
    FieldInsert("Data", "M", NilPairMap, NoFloats, PairDot.placeholders, "ArrayAsKey", KeyText);
  }

  lemma PlaceholderKeyStep()
    ensures WalkFrom(Env(NoFloats, map["ArrayAsKey" := ZeroPair], KeyText), NilPairMap, "", ["M", "ArrayAsKey"], 1, Var)
      == Outcome(VMap(PairKey, TScalar(StrT), Some(map[ZeroPair := KeyText])), None)
  {
    var ph := map["ArrayAsKey" := ZeroPair];
    var env := Env(NoFloats, ph, KeyText);
    assert Paths.PreparePath("", ["M", "ArrayAsKey"]) == "M.ArrayAsKey";
    assert TypeOf(ZeroPair) == PairKey;
    assert PrepareKey(NoFloats, ph, PairKey, "ArrayAsKey", "M.ArrayAsKey") == Success(ZeroPair);
    assert ["M", "ArrayAsKey"][1..] == ["ArrayAsKey"];
    var blank := VScalar(StrT, LStr(""));
    assert Zero(TScalar(StrT)) == blank;
    assert Walk(env, blank, "M.ArrayAsKey", [], Map) == Outcome(KeyText, None);
    assert InMap(env, NilPairMap, "M.ArrayAsKey", ["ArrayAsKey"])
      == Outcome(VMap(PairKey, TScalar(StrT), Some(map[ZeroPair := KeyText])), None);
  }

  /** Any other segment for that key type has no parser to fall back on: it
      is an unknown placeholder naming the key type and the path, and the
      nil map is still made. */
  lemma UnknownArrayKey()
    ensures var ph := map["ArrayAsKey" := ZeroPair];
      Insert(Replace(Dot(Zero(PairMapHolder), None, map[]), "ArrayAsKey", ZeroPair), NoFloats, "M.XYZ", KeyText)
      == (Dot(VRecord("Data", [("M", VMap(PairKey, TScalar(StrT), Some(map[])))]), Some(KeyText), ph),
          Some(UnknownPlaceholder(PairKey, "M.XYZ")))
  {
    PairHandle();
    UnknownKeyInsert();
  }

  lemma UnknownKeyInsert()
    ensures CanInsert(PairDot, KeyText)
    ensures Insert(PairDot, NoFloats, "M.XYZ", KeyText)
      == (Dot(VRecord("Data", [("M", VMap(PairKey, TScalar(StrT), Some(map[])))]), Some(KeyText), PairDot.placeholders),
          Some(UnknownPlaceholder(PairKey, "M.XYZ")))
  {
    PairDotInsertable();
    UnknownKeyStep();
    assert "M" + "." + "XYZ" == "M.XYZ";
    FieldInsert("Data", "M", NilPairMap, NoFloats, PairDot.placeholders, "XYZ", KeyText);
  }

  lemma UnknownKeyStep()
    ensures WalkFrom(Env(NoFloats, map["ArrayAsKey" := ZeroPair], KeyText), NilPairMap, "", ["M", "XYZ"], 1, Var)
      == Outcome(VMap(PairKey, TScalar(StrT), Some(map[])), Some(UnknownPlaceholder(PairKey, "M.XYZ")))
  {
    var ph := map["ArrayAsKey" := ZeroPair];
    var env := Env(NoFloats, ph, KeyText);
    assert Paths.PreparePath("", ["M", "XYZ"]) == "M.XYZ";
    assert "XYZ" !in ph;
    assert PrepareKey(NoFloats, ph, PairKey, "XYZ", "M.XYZ") == Failure(UnknownPlaceholder(PairKey, "M.XYZ"));
    assert ["M", "XYZ"][1..] == ["XYZ"];
    assert InMap(env, NilPairMap, "M.XYZ", ["XYZ"])
      == Outcome(VMap(PairKey, TScalar(StrT), Some(map[])), Some(UnknownPlaceholder(PairKey, "M.XYZ")));
  }
}

=== FILE: types.dfy ===
/**
 * The closed universe of types and values that stands in for Go's reflection
 * in the path-insertion engine. Every value knows its own type (`TypeOf`), and
 * every type has a zero value (`Zero`), which is what `reflect.New(t).Elem()`
 * produces in the source.
 */
module Types {
  import opened Wrappers

  /** Bit widths of Go's sized numeric kinds (`int` and `uint` are 64-bit). */
  datatype Width = W8 | W16 | W32 | W64 | W128

  function Bits(w: Width): nat
  {
    match w
    case W8 => 8
    case W16 => 16
    case W32 => 32
    case W64 => 64
    case W128 => 128
  }

  /** The kinds of non-composite Go types the engine distinguishes. `Opaque`
      covers pointers, functions and unsafe pointers: the walker never looks
      inside them. */
  datatype ScalarKind =
    | Int(w: Width)
    | Uint(w: Width)
    | Uintptr
    | Float(w: Width)
    | Complex(w: Width)
    | Bool
    | String
    | Interface
    | Opaque

  /** A scalar type is its kind plus its name, so that a named type such as
      `type Key uint` differs from `uint` although both have kind `Uint`. */
  datatype ScalarType = ScalarType(kind: ScalarKind, name: string)

  datatype Type =
    | TScalar(scalar: ScalarType)
    | TRecord(name: string, fields: seq<(string, Type)>)
    | TMap(key: Type, elem: Type)
    | TSlice(elem: Type)
    | TArray(len: nat, elem: Type)
    | TChan(elem: Type)

  /** The payload of a scalar. Floating-point and complex numbers are kept as
      opaque bit patterns; `LRef(0)` is the nil pointer or nil interface. */
  datatype Lit =
    | LInt(i: int)
    | LBool(b: bool)
    | LStr(s: string)
    | LBits(bits: nat)
    | LRef(id: nat)

  /** Values. A `None` map or channel and a `NilSlice` slice are Go's nil ones. A channel has a
      single slot: `Some(None)` is a channel whose slot is free and
      `Some(Some(x))` one holding `x`. */
  datatype Value =
    | VScalar(st: ScalarType, lit: Lit)
    | VRecord(name: string, fields: seq<(string, Value)>)
    | VMap(keyT: Type, elemT: Type, entries: Option<map<Value, Value>>)
    | VSlice(elemT: Type, backing: Backing)
    | VArray(elemT: Type, elems: seq<Value>)
    | VChan(elemT: Type, ch: Option<Option<Value>>)

  /** The backing store of a slice: Go's nil slice, or a made one. */
  datatype Backing = NilSlice | Backed(xs: seq<Value>)

  function TypeOf(v: Value): Type
  {
    match v
    case VScalar(st, _) => TScalar(st)
    case VRecord(name, fs) =>
      TRecord(name, seq(|fs|, i requires 0 <= i < |fs| => (fs[i].0, TypeOf(fs[i].1))))
    case VMap(k, e, _) => TMap(k, e)
    case VSlice(e, _) => TSlice(e)
    case VArray(e, xs) => TArray(|xs|, e)
    case VChan(e, _) => TChan(e)
  }

  function ZeroLit(k: ScalarKind): Lit
  {
    match k
    case Int(_) => LInt(0)
    case Uint(_) => LInt(0)
    case Uintptr => LInt(0)
    case Float(_) => LBits(0)
    case Complex(_) => LBits(0)
    case Bool => LBool(false)
    case String => LStr("")
    case Interface => LRef(0)
    case Opaque => LRef(0)
  }

  /** Every channel the walker can reach in place (through record fields and
      slice elements) has its slot free. Sending into a full slot blocks
      forever in the source, so the walker is only modelled on such values. */
  predicate Drained(v: Value)
  {
    match v
    case VChan(_, ch) => !(ch.Some? && ch.value.Some?)
    case VRecord(_, fs) => forall i :: 0 <= i < |fs| ==> Drained(fs[i].1)
    case VSlice(_, Backed(xs)) => forall i :: 0 <= i < |xs| ==> Drained(xs[i])
    case _ => true
  }

  /** The zero value of a type: nil maps, slices and channels, zeroed
      records and arrays. */
  function Zero(t: Type): (z: Value)
    ensures TypeOf(z) == t
    ensures Drained(z)
    ensures t.TScalar? && (t.scalar.kind.Int? || t.scalar.kind.Uint? || t.scalar.kind.Uintptr?) ==> z.lit == LInt(0)
    ensures t.TScalar? && (t.scalar.kind.Float? || t.scalar.kind.Complex?) ==> z.lit == LBits(0)
    ensures t.TScalar? && t.scalar.kind.Bool? ==> z.lit == LBool(false)
    ensures t.TScalar? && t.scalar.kind.String? ==> z.lit == LStr("")
    ensures t.TScalar? && (t.scalar.kind.Interface? || t.scalar.kind.Opaque?) ==> z.lit == LRef(0)
    ensures t.TMap? ==> z.entries == None
    ensures t.TSlice? ==> z.backing == NilSlice
    ensures t.TChan? ==> z.ch == None
    ensures t.TArray? ==> forall j :: 0 <= j < |z.elems| ==> z.elems[j] == Zero(t.elem)
    ensures t.TRecord? ==> forall j :: 0 <= j < |z.fields| ==> z.fields[j] == (t.fields[j].0, Zero(t.fields[j].1))
  {
    match t
    case TScalar(st) => VScalar(st, ZeroLit(st.kind))
    case TRecord(name, fts) =>
      var z := VRecord(name, seq(|fts|, i requires 0 <= i < |fts| => (fts[i].0, Zero(fts[i].1))));
      assert TypeOf(z).fields == fts;
      z
    case TMap(k, e) => VMap(k, e, None)
    case TSlice(e) => VSlice(e, NilSlice)
    case TArray(n, e) => VArray(e, seq(n, _ => Zero(e)))
    case TChan(e) => VChan(e, None)
  }

  /** The untyped nil interface: `reflect.ValueOf(nil)` has no type, so the
      source panics when it has to compare or store it. */
  predicate IsNil(v: Value)
  {
    v.VScalar? && v.st.kind == Interface
  }

  /** Replacing one record field by a value of the same type keeps the
      record's type. */
  lemma SetFieldKeepsType(name: string, fs: seq<(string, Value)>, i: nat, w: Value)
    requires i < |fs|
    requires TypeOf(w) == TypeOf(fs[i].1)
    ensures TypeOf(VRecord(name, fs[i := (fs[i].0, w)])) == TypeOf(VRecord(name, fs))
  {
    var fs' := fs[i := (fs[i].0, w)];
    assert TypeOf(VRecord(name, fs')).fields == TypeOf(VRecord(name, fs)).fields;
  }
}

=== FILE: walker.dfy ===
/**
 * The path walker (dot.go `insert` and `set`) and the four container handlers
 * it delegates to (map.go `inMap`, slice.go `inSlice`/`appendValue`, array.go
 * `inArray`, channel.go `inChannel`). They are mutually recursive and each
 * step consumes at least one path segment.
 *
 * The source mutates the structure through addressable reflection handles;
 * here every step returns the updated value together with the error, if any,
 * because containers created on the way (a made map, slice or channel) stay
 * in place when a later step fails.
 */
module Walker {
  import opened Wrappers
  import opened Types
  import opened Numerals
  import opened Errors
  import opened KeyCodec
  import opened Paths

  /** What one insertion works with: the number parsers, the placeholder
      table, and the content to be written (`Dot.Content`). */
  datatype Env = Env(nums: NumberSyntax, placeholders: map<string, Value>, content: Value)

  /** The updated value and the error the step reports, if any. */
  datatype Outcome = Outcome(value: Value, err: Option<Error>)

  /** `reflect.Value.FieldByName` on a record: the first field so named. */
  function FieldIndex(fs: seq<(string, Value)>, name: string): (r: Option<nat>)
    ensures r.Some? ==> r.value < |fs| && fs[r.value].0 == name
    ensures r.Some? ==> forall j :: 0 <= j < r.value ==> fs[j].0 != name
    ensures r.None? ==> forall j :: 0 <= j < |fs| ==> fs[j].0 != name
  {
    if |fs| == 0 then None
    else if fs[0].0 == name then Some(0)
    else
      match FieldIndex(fs[1..], name)
      case None => None
      case Some(i) => Some(i + 1)
  }

  /** Records whose fields have the same names in the same order resolve
      every field name to the same position. */
  lemma {:induction false} FieldIndexSameNames(fs: seq<(string, Value)>, gs: seq<(string, Value)>, name: string)
    requires |fs| == |gs|
    requires forall j :: 0 <= j < |fs| ==> fs[j].0 == gs[j].0
    ensures FieldIndex(fs, name) == FieldIndex(gs, name)
  {
    if |fs| > 0 && fs[0].0 != name {
      FieldIndexSameNames(fs[1..], gs[1..], name);
    }
  }

  /** The elements of a slice; a nil slice has none. */
  function Items(s: Value): seq<Value>
    requires s.VSlice?
  {
    if s.backing.Backed? then s.backing.xs else []
  }

  /** The entries of a map; a nil map has none. */
  function Entries(m: Value): map<Value, Value>
    requires m.VMap?
  {
    if m.entries.Some? then m.entries.value else map[]
  }

  /** `set`: the final write. It succeeds exactly when the content has the
      slot's type, and the error names the scenario passed down to it. */
  function Set(slot: Value, path: string, content: Value, source: Scenario): (r: Outcome)
    ensures r.err.None? <==> TypeOf(content) == TypeOf(slot)
    ensures r.err.None? ==> r.value == content
    ensures r.err.Some? ==> r.value == slot
    ensures r.err.Some? ==> r.err.value == TypeMismatch(TypeOf(slot), TypeOf(content), path, source)
  {
    if TypeOf(slot) != TypeOf(content) then
      Outcome(slot, Some(TypeMismatch(TypeOf(slot), TypeOf(content), path, source)))
    else
      Outcome(content, None)
  }

  /** `insert`: walks `parts` from `v`, the paths in messages being built on
      `previous`. The updated value always keeps the type of `v`. */
  function Walk(env: Env, v: Value, previous: string, parts: seq<string>, source: Scenario): (r: Outcome)
    requires Drained(v)
    ensures TypeOf(r.value) == TypeOf(v)
    decreases |parts|, 2
  {
    WalkFrom(env, v, previous, parts, 0, source)
  }

  /** One iteration of the loop in `insert`: `parts[..k]` are consumed and
      `v` is the value reached so far. */
  function WalkFrom(env: Env, v: Value, previous: string, parts: seq<string>, k: nat, source: Scenario): (r: Outcome)
    requires k <= |parts|
    requires Drained(v)
    ensures TypeOf(r.value) == TypeOf(v)
    ensures k < |parts| && v.VRecord? && FieldIndex(v.fields, parts[k]).Some? ==>
      var i := FieldIndex(v.fields, parts[k]).value;
      var field := v.fields[i].1;
      var o := if field.VChan? then InChannel(env, field, PreparePath(previous, parts[..k + 1]), parts[k..])
               else WalkFrom(env, field, previous, parts, k + 1, source);
      && r.value.VRecord? && r.value.name == v.name
      && |r.value.fields| == |v.fields|
      && (forall j :: 0 <= j < |v.fields| && j != i ==> r.value.fields[j] == v.fields[j])
      && r.value.fields[i] == (v.fields[i].0, o.value)
      && r.err == o.err
    decreases |parts| - k, 1
  {
    if k == |parts| then Set(v, PreparePath(previous, parts), env.content, source)
    else
      var path := PreparePath(previous, parts[..k + 1]);
      var rest := parts[k..];
      match v
      case VMap(_, _, _) => InMap(env, v, path, rest)
      case VSlice(_, _) => InSlice(env, v, path, rest)
      case VArray(_, _) => InArray(env, v, path, rest)
      case VRecord(name, fs) =>
        (match FieldIndex(fs, parts[k])
         case None => Outcome(v, Some(UnknownPath(path)))
         case Some(i) =>
           var field := fs[i].1;
           var o := if field.VChan? then InChannel(env, field, path, rest)
                    else WalkFrom(env, field, previous, parts, k + 1, source);
           SetFieldKeepsType(name, fs, i, o.value);
           Outcome(VRecord(name, fs[i := (fs[i].0, o.value)]), o.err))
      case _ => Outcome(v, Some(UnknownPath(path)))
  }

  /** `inMap`: a nil map is made first; the key segment is resolved, the rest
      of the path is walked from a zero value of the map's value type, and
      only a successful walk is stored under the key. */
  function InMap(env: Env, m: Value, path: string, parts: seq<string>): (r: Outcome)
    requires m.VMap? && |parts| > 0
    ensures TypeOf(r.value) == TypeOf(m)
    ensures r.value.VMap? && r.value.entries.Some?
    ensures r.err.Some? ==> Entries(r.value) == Entries(m)
    ensures PrepareKey(env.nums, env.placeholders, m.keyT, parts[0], path).Failure? ==>
      r.err == Some(PrepareKey(env.nums, env.placeholders, m.keyT, parts[0], path).error)
    ensures r.err.None? ==>
      var key := PrepareKey(env.nums, env.placeholders, m.keyT, parts[0], path).value;
      && Entries(r.value).Keys == Entries(m).Keys + {key}
      && TypeOf(Entries(r.value)[key]) == m.elemT
      && forall k' :: k' in Entries(m) && k' != key ==> Entries(r.value)[k'] == Entries(m)[k']
    ensures PrepareKey(env.nums, env.placeholders, m.keyT, parts[0], path).Success? ==>
      r.err == Walk(env, Zero(m.elemT), path, parts[1..], Map).err
    decreases |parts|, 0
  {
    var entries := Entries(m);
    var made := VMap(m.keyT, m.elemT, Some(entries));
    match PrepareKey(env.nums, env.placeholders, m.keyT, parts[0], path)
    case Failure(e) => Outcome(made, Some(e))
    case Success(key) =>
      var o := Walk(env, Zero(m.elemT), path, parts[1..], Map);
      if o.err.Some? then Outcome(made, o.err)
      else Outcome(VMap(m.keyT, m.elemT, Some(entries[key := o.value])), None)
  }

  /** `inSlice`: the index segment must be an integer; a nil slice is made
      before the bounds check; a non-negative index walks the existing
      element in place, any negative index appends. */
  function InSlice(env: Env, s: Value, path: string, parts: seq<string>): (r: Outcome)
    requires s.VSlice? && |parts| > 0 && Drained(s)
    ensures TypeOf(r.value) == TypeOf(s)
    ensures Atoi(parts[0]).None? ==> r == Outcome(s, Some(InvalidSliceIndex(parts[0])))
    ensures Atoi(parts[0]).Some? ==> r.value.backing.Backed?
    ensures Atoi(parts[0]).Some? && Atoi(parts[0]).value >= 0 ==>
      var index := Atoi(parts[0]).value;
      && (index >= |Items(s)| ==> r.err == Some(SliceIndexOutOfRange(index, path)))
      && |Items(r.value)| == |Items(s)|
      && forall j :: 0 <= j < |Items(s)| && j != index ==> Items(r.value)[j] == Items(s)[j]
    ensures Atoi(parts[0]).Some? && Atoi(parts[0]).value < 0 && r.err.Some? ==>
      Items(r.value) == Items(s)
    ensures Atoi(parts[0]).Some? && Atoi(parts[0]).value < 0 && r.err.None? ==>
      && |Items(r.value)| == |Items(s)| + 1
      && Items(r.value)[..|Items(s)|] == Items(s)
    ensures Atoi(parts[0]).Some? && 0 <= Atoi(parts[0]).value < |Items(s)| ==>
      var o := Walk(env, Items(s)[Atoi(parts[0]).value], path, parts[1..], Slice);
      Items(r.value)[Atoi(parts[0]).value] == o.value && r.err == o.err
    ensures Atoi(parts[0]).Some? && Atoi(parts[0]).value < 0 ==>
      r.err == Walk(env, Zero(s.elemT), path, parts[1..], Slice).err
    decreases |parts|, 0
  {
    match Atoi(parts[0])
    case None => Outcome(s, Some(InvalidSliceIndex(parts[0])))
    case Some(index) =>
      var xs := Items(s);
      var made := VSlice(s.elemT, Backed(xs));
      if index > -1 then
        if |xs| <= index then Outcome(made, Some(SliceIndexOutOfRange(index, path)))
        else
          var o := Walk(env, xs[index], path, parts[1..], Slice);
          Outcome(VSlice(s.elemT, Backed(xs[index := o.value])), o.err)
      else
        AppendValue(env, made, path, parts[1..])
  }

  /** `appendValue`: walks from a zero element and appends the result, only
      when the walk succeeded. */
  function AppendValue(env: Env, s: Value, path: string, parts: seq<string>): (r: Outcome)
    requires s.VSlice? && s.backing.Backed?
    ensures TypeOf(r.value) == TypeOf(s)
    ensures r.value.backing.Backed?
    ensures r.err.Some? ==> r.value == s
    ensures r.err.None? ==>
      && |Items(r.value)| == |Items(s)| + 1
      && Items(r.value)[..|Items(s)|] == Items(s)
      && TypeOf(Items(r.value)[|Items(s)|]) == s.elemT
    ensures r.err == Walk(env, Zero(s.elemT), path, parts, Slice).err
    decreases |parts|, 3
  {
    var o := Walk(env, Zero(s.elemT), path, parts, Slice);
    if o.err.Some? then Outcome(s, o.err)
    else Outcome(VSlice(s.elemT, Backed(s.backing.xs + [o.value])), None)
  }

  /** `inArray`: the index segment must be an integer within the array; the
      element is replaced by a walk from a fresh zero element, only when that
      walk succeeded. */
  function InArray(env: Env, a: Value, path: string, parts: seq<string>): (r: Outcome)
    requires a.VArray? && |parts| > 0
    ensures TypeOf(r.value) == TypeOf(a)
    ensures Atoi(parts[0]).None? ==> r == Outcome(a, Some(InvalidArrayIndex(parts[0])))
    ensures Atoi(parts[0]).Some? && !(0 <= Atoi(parts[0]).value < |a.elems|) ==>
      r == Outcome(a, Some(ArrayIndexOutOfRange(Atoi(parts[0]).value, path, TypeOf(a))))
    ensures r.err.Some? ==> r.value == a
    ensures r.err.None? ==>
      var index := Atoi(parts[0]).value;
      && 0 <= index < |a.elems|
      && forall j :: 0 <= j < |a.elems| && j != index ==> r.value.elems[j] == a.elems[j]
    ensures Atoi(parts[0]).Some? && 0 <= Atoi(parts[0]).value < |a.elems| ==>
      r.err == Walk(env, Zero(a.elemT), path, parts[1..], Array).err
    decreases |parts|, 0
  {
    match Atoi(parts[0])
    case None => Outcome(a, Some(InvalidArrayIndex(parts[0])))
    case Some(index) =>
      if |a.elems| <= index || index < 0 then
        Outcome(a, Some(ArrayIndexOutOfRange(index, path, TypeOf(a))))
      else
        var o := Walk(env, Zero(a.elemT), path, parts[1..], Array);
        if o.err.Some? then Outcome(a, o.err)
        else Outcome(VArray(a.elemT, a.elems[index := o.value]), None)
  }

  /** `inChannel`: `parts[0]` is the field name that reached the channel. A
      nil channel is made with one slot; the segments after the field name
      are walked from a zero element, and only a successful result is sent. */
  function InChannel(env: Env, c: Value, path: string, parts: seq<string>): (r: Outcome)
    requires c.VChan? && |parts| > 0 && Drained(c)
    ensures TypeOf(r.value) == TypeOf(c)
    ensures r.err.Some? ==> r.value.ch == Some(None)
    ensures r.err.None? ==> r.value.ch.Some? && r.value.ch.value.Some?
    ensures r.err.None? ==> TypeOf(r.value.ch.value.value) == c.elemT
    ensures r.err == Walk(env, Zero(c.elemT), path, parts[1..], Channel).err
    decreases |parts|, 0
  {
    var made := if c.ch.None? then VChan(c.elemT, Some(None)) else c;
    var o := Walk(env, Zero(c.elemT), path, parts[1..], Channel);
    if o.err.Some? then Outcome(made, o.err)
    else Outcome(VChan(c.elemT, Some(Some(o.value))), None)
  }

  /** A segment that lands on a scalar, on a channel not reached as a record
      field, or on a record without a field of that name ends the walk with
      an unknown-path error naming the prefix through that segment; nothing
      is changed. */
  lemma DeadEnd(env: Env, v: Value, previous: string, parts: seq<string>, k: nat, source: Scenario)
    requires k < |parts| && Drained(v)
    requires v.VScalar? || v.VChan? || (v.VRecord? && FieldIndex(v.fields, parts[k]).None?)
    ensures WalkFrom(env, v, previous, parts, k, source)
      == Outcome(v, Some(UnknownPath(PreparePath(previous, parts[..k + 1]))))
  {
  }

  /** The old entry under the key plays no part: two maps of one type give
      the same error and store the same value under the key. */
  lemma MapDiscardsOld(env: Env, m1: Value, m2: Value, path: string, parts: seq<string>)
    requires m1.VMap? && m2.VMap? && TypeOf(m1) == TypeOf(m2) && |parts| > 0
    ensures InMap(env, m1, path, parts).err == InMap(env, m2, path, parts).err
    ensures InMap(env, m1, path, parts).err.None? ==>
      var key := PrepareKey(env.nums, env.placeholders, m1.keyT, parts[0], path).value;
      Entries(InMap(env, m1, path, parts).value)[key] == Entries(InMap(env, m2, path, parts).value)[key]
  {
  }

  /** An array element is replaced by a walk from a fresh zero element, not
      updated in place: two arrays of one type give the same error and the
      same element at the index. */
  lemma ArrayReplacesWhole(env: Env, a1: Value, a2: Value, path: string, parts: seq<string>)
    requires a1.VArray? && a2.VArray? && TypeOf(a1) == TypeOf(a2) && |parts| > 0
    ensures InArray(env, a1, path, parts).err == InArray(env, a2, path, parts).err
    ensures InArray(env, a1, path, parts).err.None? ==>
      var index := Atoi(parts[0]).value;
      InArray(env, a1, path, parts).value.elems[index] == InArray(env, a2, path, parts).value.elems[index]
  {
    assert |a1.elems| == |a2.elems|;
  }

  /** What a channel step sends does not depend on whether the channel was
      nil: a successful step leaves the same one-slot buffer either way. */
  lemma ChannelIgnoresState(env: Env, c1: Value, c2: Value, path: string, parts: seq<string>)
    requires c1.VChan? && c2.VChan? && TypeOf(c1) == TypeOf(c2) && |parts| > 0 && Drained(c1) && Drained(c2)
    ensures InChannel(env, c1, path, parts).err == InChannel(env, c2, path, parts).err
    ensures InChannel(env, c1, path, parts).err.None? ==> InChannel(env, c1, path, parts).value == InChannel(env, c2, path, parts).value
  {
  }
}

=== FILE: wrappers.dfy ===
/** Optional values and results shared by every module of the model. */
module Wrappers {

  datatype Option<+T> = None | Some(value: T)

  datatype Result<+R, +E> = Success(value: R) | Failure(error: E)
}
